=== FILE: README.md ===
# RegularExpressions-to-DFA: the regex-to-NFA compilers, in Dafny

This project models the part of the RegularExpressions-to-DFA repository that turns a regular expression into a nondeterministic finite automaton (NFA). It also models the graph structures underneath.

- **Infix compiler** (`automata.dfy`, module `Automata`).
  - `Automata::build` scans an infix pattern once. It inserts the implicit concatenation operator `.` and keeps two stacks: pending operators and NFA fragments.
  - Four Thompson constructions (`star`, `plus`, `concat`, `or_operator`) build each new fragment in a fresh vertex-id graph.
  - The scan is a state machine of pure functions (`Step`, `Scan`, `Drain`, `Compiled`). The class `Automata.Automata` runs the same loops over its own fields and is proved equal to it.
  - Each construction is a method that builds the graph step by step. It is proved equal to a closed-form graph (`StarGraph`, `PlusGraph`, `ConcatGraph`, `OrGraph`).
- **Vertex-id graph** (`vertex_graph.dfy`, module `VertexGraph`).
  - The graph the infix compiler builds on. Vertices are integer ids (numbered as stated below); transitions are `(from, symbol, to)` triples; there is one start and a set of finals.
  - Its only visible contract is the repository's test fixture. That fixture is modelled in `graph_test.dfy` (module `GraphTest`) as a class whose scenario methods state what each expectation checks.
- **Postfix builder** (`nfa.dfy`, module `Nfa`).
  - `NFA::build_nfa` evaluates a postfix expression with a stack of fragments.
  - `NFA::accepts` is modelled as the epsilon-closure set simulation its documentation promises.
- **Acceptance semantics** (`nfa_semantics.dfy`, module `Semantics`).
  - Defines transitions, the EPSILON-closure and acceptance by runs.
  - The set-of-states simulation, with its worklist closure, is proved to accept exactly what some run accepts.
- **Languages of the built automata** (`acceptance.dfy`, module `Acceptance`).
  - Writes out the literal, star, plus, concatenation and alternative constructions on literals, vertex by vertex, and proves which words each accepts.
  - From these it derives the verdicts of the compiled patterns `a`, `a*`, `a+`, `ab` and `a` alternated with `b`.
- **Generic adjacency graph** (`node.dfy`, module `NodeModule`; `adjacency_graph.dfy`, module `AdjacencyGraph`).
  - `Node<T,E>` holds data and a map from neighbour nodes to edge labels. `Graph<T,E>` is a map from data to nodes.
  - Both are classes whose methods update those maps in place.
- `wrappers.dfy` (module `Wrappers`) holds `Option` and `Result`.

Errors are explicit results rather than exceptions or undefined behaviour:

- An operator that finds too few fragments becomes `MissingOperand`. In the source this is `top()` on an empty `std::stack`.
- `std::invalid_argument` becomes `InvalidArgument`.
- `std::out_of_range` becomes `OutOfRange`.
- The postfix builder's `runtime_error` becomes `InvalidRegularExpression`.

Stated assumptions about helpers whose code is not part of this model:

- **EPSILON** is the character `'\0'`.
- **Vertex ids** of the vertex-id graph are handed out in order from 1, so a graph with `n` vertices holds the ids 1 to `n` and `nextId` is `n + 1`. The tests fix only three distinct ids, none equal to 4; the numbering is what the fixture (`GraphTest.GraphTest.SetUp`) and the id shift of `connect_graph_to_vertex` below rely on.
- **`connect_graph_to_vertex(g, v)`** copies every vertex of `g` under a fresh id: its own id plus `nextId - 1` of the receiving graph. It copies every transition of `g` between the copies and adds an EPSILON transition from `v` to the copy of `g`'s start. It returns the copies of `g`'s start and final (`VertexGraph.Graph.ConnectGraphToVertex`).
- **`merge_graphs(l, r)`** (postfix builder) joins `l`'s final node to `r`'s start by EPSILON. The joined fragment runs from `l`'s start to `r`'s final. `l`'s final node is no longer final.
- **The postfix builder's node calls** (`Graph::create_node`, `Node::add_transition`, `Node::get_transitions`, `Node::is_final`).
  - `create_node()` returns a node under a fresh id; `create_node(true)` also flags it final.
  - `add_transition(symbol, node)` adds one transition and never replaces an earlier one, even one from the same node on the same symbol. The `*` case relies on this: it adds two EPSILON transitions from its start and two from the operand's final.
  - `get_transitions()` returns every transition added from the node, and `is_final()` reads the flag.
- **`get_node(1)` and `get_final_node()`** return a fragment's start and its final node. Fragments are handles on these two nodes, and node ids are fresh across the whole build.
- **Edge labels** of the generic graph are `char`, its only instantiation. So the default label `E()` is `'\0'`.

Where the code departs from the usual regular-expression rules, the model follows the code:

- The infix compiler pushes `.` and `|` without comparing precedence. So `ab|c` compiles as `a(b|c)` (see Findings).
- An unmatched `)` or `(` is not an error: `)` with no `(` drains the whole operator stack, and a leftover `(` is popped and ignored at the end.
- In the postfix builder, `+` is a literal.
- A postfix expression that leaves several fragments on the stack, such as `ab`, is not an error: `build_nfa` keeps the top fragment (`Nfa.BuildKeepsTop`).
- Headers whose declarations contradict the `.cpp` files are ignored, and the `.cpp` files are followed. These are `src/graph/graph.h` (a vector of nodes) and `src/nfa/nfa.h` (a different NFA interface).
- `Graph::has_edge` calls `has_neighbor`, which `Node` does not declare. It is read as `is_neighbor` on the node itself.

## Model

| member | source | states |
|---|---|---|
| Semantics.ClosureIsLeast | src/nfa/nfa.h:57-58 | the EPSILON-closure of `s` contains `s`, is closed under EPSILON transitions, and lies inside every closed superset of `s` |
| Semantics.ClosureIdempotent | src/nfa/nfa.h:57-58 | closing a closure adds nothing |
| Semantics.ClosureIsEpsReach | src/nfa/nfa.h:57-58 | a state is in the closure of `s` exactly when an EPSILON-only run reaches it from `s` |
| Semantics.EpsilonClosure | src/nfa/nfa.h:57-58 | the worklist with a visited set returns exactly the EPSILON-closure |
| Semantics.SimulateIsRuns | src/nfa/nfa.cpp:42-52 | after reading `w`, the simulation holds exactly the states some run spelling `w` reaches |
| Semantics.SimulationAcceptsIffAccepted | src/nfa/nfa.cpp:42-52 | the set simulation accepts `w` if and only if some run spelling `w` ends in a final state |
| Semantics.RunSimulation | src/nfa/nfa.cpp:42-52 | the simulation loop returns the simulation's verdict, which for EPSILON-free input is acceptance by some run |
| VertexGraph.Graph.constructor | tests/graph.test.cpp:40-44 | a new graph has no vertices, no transitions and no finals |
| VertexGraph.Graph.CreateVertex | tests/graph.test.cpp:25-27 | returns an id never handed out before, which is a vertex afterwards; nothing else changes |
| VertexGraph.Graph.AddEdge | tests/graph.test.cpp:33-35 | adds exactly the transition `u --symbol--> w`; vertices, start and finals are unchanged |
| VertexGraph.Graph.SetStart | tests/graph.test.cpp:30 | sets the start; transitions, finals and vertices are unchanged |
| VertexGraph.Graph.AddFinal | tests/graph.test.cpp:84-85 | adds the given vertices to the finals and removes none; nothing else changes |
| VertexGraph.Graph.GetVertexes | tests/graph.test.cpp:53-60 | the vertex set has one element per created vertex and holds exactly the ids handed out |
| VertexGraph.Graph.ContainsVertex | tests/graph.test.cpp:93-99 | a vertex is contained exactly when it is in `get_vertexes()` |
| VertexGraph.Graph.IsEmpty | tests/graph.test.cpp:40-50 | the graph is empty exactly when it has no vertices |
| VertexGraph.Graph.IsFinal | tests/graph.test.cpp:82-90 | only a vertex can be final |
| VertexGraph.Graph.GetWeight | tests/graph.test.cpp:63-79 | returns a label exactly when a transition `u -> v` exists in that direction, and that transition carries the label |
| VertexGraph.Graph.ConnectGraphToVertex | src/automata/automata.cpp:133 | copies the fragment under ids moved up by `nextId - 1`, adds EPSILON from `v` to the copied start, returns the copied start and final, and leaves start and finals alone |
| GraphTest.GraphTest.SetUp | tests/graph.test.cpp:20-36 | the fixture is the triangle `1 -A-> 2 -B-> 3 -C-> 1` with start 1 and ids 1, 2, 3 |
| GraphTest.GraphTest.IsEmptyOnEmptyGraph | tests/graph.test.cpp:40-44 | a default-constructed graph is empty |
| GraphTest.GraphTest.IsEmptyOnNonEmptyGraph | tests/graph.test.cpp:47-50 | the fixture graph is not empty |
| GraphTest.GraphTest.GetVertexes | tests/graph.test.cpp:53-60 | the fixture has three vertices and all three created ids are among them |
| GraphTest.GraphTest.GetWeight | tests/graph.test.cpp:63-79 | each triangle edge reports its label, and the reverse direction `v1 -> v3` reports none |
| GraphTest.GraphTest.IsFinal | tests/graph.test.cpp:82-90 | after marking `v1` and `v3` final, exactly those are final |
| GraphTest.GraphTest.ContainsVertex | tests/graph.test.cpp:93-99 | the three created ids are contained, and id 4 is not |
| Automata.LiteralGraph | src/automata/automata.cpp:83-92 | the fragment of a literal has start 1, the single final 2, and the single transition `1 --c--> 2` |
| Automata.Automata.Literal | src/automata/automata.cpp:83-92 | the literal case builds exactly `LiteralGraph(c)` |
| Automata.Automata.Star | src/automata/automata.cpp:121-143 | `star` builds exactly `StarGraph(f)`: start, EPSILON to the copied operand, EPSILON loop from its final back to its start, a bypass to the new final and EPSILON from the operand's final to the new final |
| Automata.Automata.Plus | src/automata/automata.cpp:152-172 | `plus` builds exactly `PlusGraph(f)` |
| Automata.Automata.Concat | src/automata/automata.cpp:182-206 | `concat` builds exactly `ConcatGraph(l, r)`: left entered from the start, right entered from left's final, right's final the only final |
| Automata.Automata.OrOperator | src/automata/automata.cpp:216-249 | `or_operator` builds exactly `OrGraph(l, r)`: EPSILON from the start to two entry vertices, one per operand, and from both operand finals to one new final |
| Automata.StarIsFragment | src/automata/automata.cpp:121-143 | `star` of a fragment is a fragment with one final and three more vertices |
| Automata.PlusIsFragment | src/automata/automata.cpp:152-172 | `plus` of a fragment is a fragment with three more vertices |
| Automata.ConcatIsFragment | src/automata/automata.cpp:182-206 | `concat` of two fragments is a fragment with one vertex more than both together |
| Automata.OrIsFragment | src/automata/automata.cpp:216-249 | `or_operator` of two fragments is a fragment with three vertices more than both together |
| Automata.PlusIsStarWithoutBypass | src/automata/automata.cpp:139 | `plus` builds the graph of `star` minus the bypass `start -> end`, which `star` has and `plus` lacks |
| Automata.Applied | src/automata/automata.cpp:256-299 | applying an operator succeeds exactly when the stack holds its operands; `*` and `+` keep the height, `.` and alternation lower it by one, other characters leave the stack alone, and the fragments below the operands are untouched |
| Automata.Automata.ApplyOperator | src/automata/automata.cpp:256-299 | the method leaves exactly the stack `Applied` describes, or reports failure with the stack untouched; the operator stack and alphabet are unchanged |
| Automata.StepOpen | src/automata/automata.cpp:42-49 | `(` pushes `.` first when the last token was an operand, then `(`, and marks the last token as an operator |
| Automata.StepClose | src/automata/automata.cpp:51-64 | `)` is `CloseGroup` followed by marking the last token as an operand |
| Automata.StepUnary | src/automata/automata.cpp:66-69 | `*` and `+` apply at once to the fragment stack and leave the operator stack and the last token alone |
| Automata.StepBinary | src/automata/automata.cpp:71-76 | `.` and the alternation operator are pushed with no precedence comparison and mark the last token as an operator |
| Automata.StepLiteral | src/automata/automata.cpp:78-97 | a literal pushes `.` first when the last token was an operand, pushes its fragment, adds itself to the alphabet unless it is EPSILON, and marks an operand |
| Automata.Step | src/automata/automata.cpp:40-98 | one character of `build` fails exactly when `*` or `+` finds no fragment or `)` fails to close its group; on success the fragments stay well formed and the alphabet gains the character exactly when it is a literal other than EPSILON |
| Automata.Scan | src/automata/automata.cpp:38-99 | every successful prefix of the scan leaves a stack of well-formed fragments |
| Automata.ScanAlphabet | src/automata/automata.cpp:78-97 | after a successful scan the alphabet is the one it started with plus exactly the literals of the pattern other than EPSILON |
| Automata.CloseGroupStopsAtLastOpen | src/automata/automata.cpp:51-64 | `)` pops operators down to and including the last `(`; with no `(` it empties the operator stack without error |
| Automata.ScanFailureSticks | src/automata/automata.cpp:38-99 | once a prefix fails, the whole pattern fails with the same error |
| Automata.Automata.Consume | src/automata/automata.cpp:40-98 | one pass of the `switch` changes the fields exactly as `Step` describes, and fails exactly when `Step` does |
| Automata.Automata.Build | src/automata/automata.cpp:34-111 | `build` returns exactly `Compiled` of the pattern: scan, drain the operators top first, return the top fragment; on success the operator stack is empty and the graph is recorded |
| Automata.Automata.DrainOperators | src/automata/automata.cpp:101-107 | the drain loop succeeds exactly when `Drain` does and then leaves exactly its state; otherwise it reports a missing operand; the pattern and the recorded graph are unchanged |
| Automata.Drain | src/automata/automata.cpp:101-107 | draining leaves no pending operator and keeps the alphabet |
| Automata.Compiled | src/automata/automata.cpp:109-110 | a successful compilation returns a fragment |
| Automata.Compile | src/automata/automata.cpp:34-111 | compiling a pattern from the initial state yields a fragment whenever it succeeds |
| Automata.CompileNeedsLiteral | src/automata/automata.cpp:78-110 | a pattern with no literal fails, since only a literal pushes a fragment and `build` returns the top fragment |
| Automata.CompileStar | src/automata/automata.cpp:66-69 | `a*` compiles to `star(a)` |
| Automata.CompilePlus | src/automata/automata.cpp:66-69 | `a+` compiles to `plus(a)` |
| Automata.CompileAlternative | src/automata/automata.cpp:71-76 | the pattern `a` alternated with `b` compiles to `or(a, b)` |
| Automata.CompileConcat | src/automata/automata.cpp:78-82 | `ab` compiles to `concat(a, b)`: a literal after a literal pushes the implicit `.` |
| Automata.CompileLiteral | src/automata/automata.cpp:78-97 | a one-literal pattern compiles to the literal's fragment |
| Automata.CompileStarThenLiteral | src/automata/automata.cpp:66-69 | `a*b` compiles to `concat(star(a), b)`: `*` does not reset the last token, so the implicit `.` is still inserted |
| Automata.CompileWithoutPrecedence | src/automata/automata.cpp:71-76 | the pattern `ab` alternated with `c` compiles to `concat(a, or(b, c))` |
| Automata.CompileUnclosedGroup | src/automata/automata.cpp:101-107 | `(a` compiles to the fragment of `a`: the leftover `(` is applied as a no-op |
| Automata.CompileUnmatchedClose | src/automata/automata.cpp:51-64 | `a)` compiles to the fragment of `a`: an unmatched `)` raises no error |
| Automata.CompileEmptyPattern | src/automata/automata.cpp:109 | the empty pattern has no fragment to return and fails |
| Automata.CompileLoneOpen | src/automata/automata.cpp:42-49 | `(` alone fails for lack of a fragment |
| Automata.CompileLoneClose | src/automata/automata.cpp:51-64 | `)` alone fails for lack of a fragment |
| Automata.CompileLoneStar | src/automata/automata.cpp:256-274 | `*` or `+` with no operand fails |
| Automata.CompileLoneAlternative | src/automata/automata.cpp:288-298 | the alternation operator with no operands fails |
| Automata.CompileMissingRightOperand | src/automata/automata.cpp:288-298 | `a` followed by the alternation operator fails for lack of a right operand |
| Automata.IntendedCompileWithPrecedence | src/automata/automata.cpp:71-76 | with concatenation binding tighter than alternation, the pattern `ab` alternated with `c` compiles to `or(concat(a, b), c)` |
| Automata.PrecedenceChangesTheGraph | src/automata/automata.cpp:71-76 | the as-written and the intended graphs of `ab` alternated with `c` differ |
| Automata.Automata.constructor | src/automata/automata.cpp:23-26 | a new automaton holds the pattern, empty stacks and an empty alphabet |
| Acceptance.LiteralLanguage | src/automata/automata.cpp:83-92 | the fragment of a literal `c` accepts exactly the word `c`: neither the empty word nor any other word |
| Acceptance.StarLanguage | src/automata/automata.cpp:121-143 | the star of a literal `c` accepts exactly the words made only of `c`, the empty word included |
| Acceptance.PlusRejectsEmpty | src/automata/automata.cpp:152-172 | the plus of a literal rejects the empty word, since without the bypass no EPSILON path reaches the final |
| Acceptance.PlusLanguage | src/automata/automata.cpp:152-172 | the plus of a literal `c` accepts exactly the non-empty words made only of `c`: the loop is traversed at least once |
| Acceptance.AlternativeAcceptsEach | src/automata/automata.cpp:216-249 | the alternative of two literals accepts each of them |
| Acceptance.AlternativeRejectsOthers | src/automata/automata.cpp:216-249 | the alternative of two literals rejects the empty word and every other single character |
| Acceptance.ConcatLanguage | src/automata/automata.cpp:182-206 | the concatenation of two literals `a` and `b` accepts exactly the word `ab`, in both directions |
| Acceptance.CompiledLiteralAccepts | src/automata/automata.cpp:34-111 | the compiled `a` accepts `a` and rejects `b` and the empty word |
| Acceptance.CompiledAlternativeAccepts | src/automata/automata.cpp:34-111 | the compiled `a` alternated with `b` accepts `a` and `b` and rejects `c` |
| Acceptance.CompiledConcatAccepts | src/automata/automata.cpp:34-111 | the compiled `ab` accepts `ab` and rejects `a`, `b`, `ba` and the empty word |
| Acceptance.CompiledStarAccepts | src/automata/automata.cpp:34-111 | the compiled `a*` accepts the empty word and `aaaa` and rejects `ab` |
| Acceptance.CompiledPlusAccepts | src/automata/automata.cpp:34-111 | the compiled `a+` rejects the empty word and accepts `a` and `aaa` |
| Nfa.StepShape | src/nfa/nfa.cpp:118-185 | a character succeeds exactly when the stack holds its operands; it then replaces them by one fragment, keeps the rest of the stack, and only adds transitions and node ids |
| Nfa.IsOperator | src/nfa/nfa.cpp:105-108 | a character is an operator exactly when it pops operands: `*`, `.` and the alternation operator |
| Nfa.Step | src/nfa/nfa.cpp:118-185 | a character fails only for a missing operand; on success it keeps every transition, and takes two fresh node ids except for `.`, which takes none |
| Nfa.Scan | src/nfa/nfa.cpp:118-185 | the scan fails only for a missing operand, and on success keeps every transition it starts with and never lowers the next node id |
| Nfa.Build | src/nfa/nfa.cpp:187-190 | on success the result is the scanned state with a fragment from its stack; `Invalid regular expression` is reported exactly when the scan succeeds with an empty stack |
| Nfa.StepLiteral | src/nfa/nfa.cpp:121-130 | a non-operator pushes one fragment on two fresh nodes joined by a single transition on it, with only the new final flagged |
| Nfa.PlusIsLiteral | src/nfa/nfa.cpp:105-108 | `+` is not an operator here and is read as a literal |
| Nfa.StepAllocated | src/nfa/nfa.cpp:118-185 | every node a fragment, transition or final flag mentions has been handed out, before and after each character |
| Nfa.ScanSucceedsIff | src/nfa/nfa.cpp:118-185 | the scan succeeds exactly when every operator finds its operands; it then leaves one fragment per operand count on the stack, and otherwise fails with `MissingOperand` |
| Nfa.BuildSucceedsIff | src/nfa/nfa.cpp:187-190 | `build_nfa` succeeds exactly when every operator finds its operands and a fragment is left; it fails with `Invalid regular expression` exactly when the scan succeeds with an empty stack |
| Nfa.BuildRejects | src/nfa/nfa.cpp:187-190 | the empty expression is invalid, and `*` alone and `a` followed by alternation miss an operand |
| Nfa.BuildKeepsTop | src/nfa/nfa.cpp:187-190 | with two fragments left (`ab`), the result is the top one |
| Nfa.ScanFails | src/nfa/nfa.cpp:118-185 | a failure on a prefix is the failure of the whole expression |
| Nfa.NfaAutomaton.BuildNfa | src/nfa/nfa.cpp:115-191 | the loop leaves exactly what `Build` describes: on success the top fragment, its transitions and final flags; on failure the error, with the graph, transitions and final flags unchanged (no graph when called from the constructor) |
| Nfa.NfaAutomaton.constructor | src/nfa/nfa.cpp:115-191 | constructing the automaton runs `build_nfa`; the graph is present exactly when the build succeeds |
| Nfa.NfaAutomaton.Accepts | src/nfa/nfa.cpp:42-52 | `accepts(str)` is the closure simulation from the automaton's start, and for EPSILON-free input holds exactly when some run spelling `str` reaches a final node |
| Nfa.StaleFinalAcceptsPrefix | src/nfa/nfa.cpp:133-149 | as written, `a*b.` leaves the inner final of `a` flagged, so the automaton accepts `a` |
| Nfa.IntendedStepKeepsOneFinal | src/nfa/nfa.cpp:133-183 | with `*` and alternation clearing their operands' final flags, each step keeps exactly one distinct flagged node per fragment on the stack |
| Nfa.IntendedScanAgrees | src/nfa/nfa.cpp:118-185 | the corrected builder accepts the same expressions and builds the same stack, transitions and node count; only final flags differ |
| Nfa.IntendedScanKeepsOneFinal | src/nfa/nfa.cpp:118-185 | under the corrected builder every prefix leaves one distinct final per fragment |
| Nfa.IntendedBuildHasOneFinal | src/nfa/nfa.cpp:187-190 | a complete expression builds an automaton whose only final node is its fragment's final |
| Nfa.IntendedBuildDropsStaleFinal | src/nfa/nfa.cpp:133-149 | on `a*b.` the corrected builder flags only the final of `b` |
| Nfa.IntendedBuildStarThenLiteral | src/nfa/nfa.cpp:133-149 | the corrected builder on `a*b.` leaves, node by node, the fragment 3 to 6 with its seven transitions and only 6 flagged |
| Nfa.IntendedBuildRejectsPrefix | src/nfa/nfa.cpp:42-52 | the corrected automaton of `a*b.` rejects `a` and accepts `ab` |
| NodeModule.Node.constructor | src/node/node.cpp:24-25 | a new node stores its data and has no neighbours |
| NodeModule.Node.SetData | src/node/node.cpp:64-68 | `set_data` replaces the data and keeps the neighbours |
| NodeModule.Node.AddNeighbor | src/node/node.cpp:77-81 | succeeds exactly when the neighbour is already present, and then sets its label to the default `E()`; otherwise nothing changes |
| NodeModule.Node.AddNeighborLabelled | src/node/node.cpp:91-96 | succeeds exactly when the neighbour is already present, and then sets its label to `edge`; the set of neighbours never changes |
| NodeModule.Node.InsertNeighbor | src/node/node.cpp:91-96 | the intended `add_neighbor`: the node becomes a neighbour with label `edge`, whether or not it was one before |
| NodeModule.Node.NotEquals | src/node/node.cpp:123-127 | `!=` is exactly the negation of `==` |
| NodeModule.Node.Equals | src/node/node.cpp:108-112 | `==` holds exactly when the two nodes carry equal data |
| NodeModule.Node.IsNeighbor | src/node/node.cpp:139-143 | `is_neighbor` holds exactly when the node is a key of the neighbour map |
| NodeModule.EqualsIgnoresNeighbors | src/node/node.cpp:108-112 | `==` is reflexive and holds between any two nodes with equal data, whatever their neighbours |
| NodeModule.Node.IsNeighborData | src/node/node.cpp:154-162 | the search returns true exactly when some neighbour carries the data |
| NodeModule.Node.IsNeighborNode | src/node/node.cpp:173-177 | holds exactly when some neighbour carries the other node's data |
| AdjacencyGraph.Graph.constructor | src/graph/graph.h:36 | a new graph has no nodes |
| AdjacencyGraph.Graph.HasNode | src/graph/graph.cpp:135-139 | `has_node` holds exactly when the data is a key of the node map |
| AdjacencyGraph.Graph.HasEdge | src/graph/graph.cpp:151-158 | an edge is only reported between two nodes that exist |
| AdjacencyGraph.Graph.AddNode | src/graph/graph.cpp:41-48 | a duplicate is refused with `InvalidArgument` and the map is unchanged; otherwise a fresh node with no neighbours is stored under the key; either way `has_node` holds afterwards, other nodes keep their place, and no edge appears or disappears |
| AdjacencyGraph.Graph.AddEdge | src/graph/graph.cpp:60-67 | a missing endpoint gives `InvalidArgument`; with both present, it succeeds exactly when the edge already exists (relabelling it) and otherwise gives `OutOfRange`; the set of edges never changes and only `data1`'s node is touched |
| AdjacencyGraph.Graph.AddEdgeIntended | src/graph/graph.cpp:60-67 | the intended `add_edge`: with both endpoints present the edge exists afterwards with the given label, and every other edge is as before |
| AdjacencyGraph.Graph.Equals | src/graph/graph.cpp:79-108 | the loop with early returns decides exactly `SameAs`: as many nodes, and each key present in the other graph with as many neighbours and an edge to each neighbour's data |
| AdjacencyGraph.Graph.NotEquals | src/graph/graph.cpp:119-123 | `!=` is exactly the negation of `==` |
| AdjacencyGraph.Graph.SameAsReflexive | src/graph/graph.cpp:79-108 | every well-formed graph compares equal to itself |
| AdjacencyGraph.Graph.SameAsSameKeys | src/graph/graph.cpp:82-88 | graphs that compare equal have the same keys |
| AdjacencyGraph.AddEdgeNeverLinks | src/graph/graph.cpp:60-67 | on two fresh nodes `add_edge` fails with `OutOfRange` and no edge exists afterwards |
| AdjacencyGraph.AddEdgeIntendedLinks | src/graph/graph.cpp:60-67 | the intended `add_edge` links two fresh nodes with the given label |

## Left out

- `main.cpp` and `src/main.cpp`: argument checking, file input and console output.
- String rendering (`print_adjacency_list`, `adjacency_matrix`, `to_string`), the iteration order of `unordered_map`, and the accessors `get_nodes`, `get_data` and `get_neighbors`, which are the fields themselves.
- `NFA::dfs` as written. `accepts` is modelled by the EPSILON-closure simulation its documentation promises. The recursive search never follows EPSILON transitions at the end of the input, lets EPSILON transitions consume a character, and can loop forever on the EPSILON cycles of `*`.
- `transform_dfa` is declared but never defined.
- The bodies of `connect_graph_to_vertex`, `merge_graphs`, `get_node`, `get_final_node`, `create_node`, `add_transition`, `get_transitions`, `is_final` and the vertex-id `Graph` are not part of this model. They are replaced by the stated assumptions above, and the vertex-id graph by the contract its tests fix.
- `shared_ptr` ownership and aliasing. Infix fragments are values; postfix fragments are handles into one node state with globally fresh ids, so the nodes the source links across graphs are modelled as shared.
- The languages of the Thompson constructions (literal, star, plus, concatenation and alternative) are stated for literal operands (`Acceptance`) and for the five compiled patterns `a`, `a*`, `a+`, `ab` and `a` alternated with `b`, not for arbitrary fragments. So nested patterns such as `ab(c+)` (which should reject `ab` and accept `abc` and `abcccc`) have no stated language.
- Vertex and node ids are unbounded integers; `int` overflow after 2^31 vertices is not modelled.
- AdjacencyGraph.Graph.Equals: the label comparison of `operator==` (src/graph/graph.cpp:99-102) is not modelled. It calls `get_data()` on an edge label, so it does not type-check once instantiated, and its intent is unclear.
- AdjacencyGraph.Graph.Equals: the model compares only the first graph's edges against the second graph, as the source does, so the relation is not proved symmetric.
- VertexGraph.Graph.IsFinal: `is_final` is only related to `get_vertexes`. The scenario `GraphTest.GraphTest.IsFinal` states the exact finals after `add_final`.

## Findings

| source | as written | input that shows it | evidently intended | confidence | as-written member | corrected member |
|---|---|---|---|---|---|---|
| src/automata/automata.cpp:71-76 | `.` and the alternation operator are pushed without popping operators that bind tighter, so pending binary operators are applied last-pushed first | the pattern `ab` alternated with `c` compiles to `a` followed by (`b` or `c`) | concatenation binds tighter than alternation, so the pattern means (`ab`) or `c` | high; not executed | Automata.CompileWithoutPrecedence | Automata.IntendedCompileWithPrecedence |
| src/node/node.cpp:91-96 | `add_neighbor` writes through `m_neighbors.at(neighbor)`, which throws `std::out_of_range` for a node that is not yet a neighbour, so `Graph::add_edge` can never create an edge | `add_node(1); add_node(2); add_edge(1, 2, 'a')` | insert or overwrite the label (`m_neighbors[neighbor] = edge`), so the edge exists afterwards | high; not executed | AdjacencyGraph.AddEdgeNeverLinks | AdjacencyGraph.AddEdgeIntendedLinks |
| src/nfa/nfa.cpp:133-169 | `*` and alternation flag their new final node but leave the operands' final nodes flagged, so a later `.` still accepts at an inner final | the postfix `a*b.` (that is, `a*b`) accepts `a` | only the fragment's own final is flagged, one per fragment | medium (the body of `merge_graphs` is not part of this model); not executed | Nfa.StaleFinalAcceptsPrefix | Nfa.IntendedBuildHasOneFinal, Nfa.IntendedBuildRejectsPrefix |

=== FILE: acceptance.dfy ===
/**
  The languages of the automata the infix compiler builds for the basic
  patterns: a literal, its star and its plus, and the concatenation and
  the alternative of two literals. Each construction is first written out
  with its vertex ids, then its language is stated through runs
  (`Semantics.Accepted`), which is what `accepts` decides on an input
  without EPSILON.
 */
module Acceptance {
  import opened Wrappers
  import opened Semantics
  import opened VertexGraph
  import opened Automata

  /** `n` copies of `c`. */
  function Repeat(c: char, n: nat): (r: string)
    ensures |r| == n && forall i :: 0 <= i < n ==> r[i] == c
  {
    if n == 0 then [] else [c] + Repeat(c, n - 1)
  }

  // ---------------------------------------------------------------------
  // The constructions on literals, vertex by vertex

  /** `star` around a literal: the copy of `1 --c--> 2` becomes
      `3 --c--> 4`, entered from 2, looped back from 4 to 3, and both 1 and
      4 lead to the new final 5. */
  lemma StarOfLiteral(c: char)
    ensures StarGraph(LiteralGraph(c)) == GraphValue(
      {Edge(1, EPSILON, 2), Edge(3, c, 4), Edge(2, EPSILON, 3), Edge(4, EPSILON, 3),
       Edge(1, EPSILON, 5), Edge(4, EPSILON, 5)}, 1, {5}, 6)
  {
    var f := LiteralGraph(c);
    assert TheFinal(f) == 2;
    assert ShiftEdges(f.edges, 2) == {Edge(3, c, 4)};
  }

  /** `plus` around a literal: the graph of `StarOfLiteral` without
      `1 --EPSILON--> 5`. */
  lemma PlusOfLiteral(c: char)
    ensures PlusGraph(LiteralGraph(c)) == GraphValue(
      {Edge(1, EPSILON, 2), Edge(3, c, 4), Edge(2, EPSILON, 3), Edge(4, EPSILON, 3),
       Edge(4, EPSILON, 5)}, 1, {5}, 6)
  {
    var f := LiteralGraph(c);
    assert TheFinal(f) == 2;
    assert ShiftEdges(f.edges, 2) == {Edge(3, c, 4)};
  }

  /** `or_operator` on two literals: `a` copied to `4 --a--> 5` behind 2,
      `b` copied to `6 --b--> 7` behind 3, both joined to the new final 8. */
  lemma OrOfLiterals(a: char, b: char)
    ensures OrGraph(LiteralGraph(a), LiteralGraph(b)) == GraphValue(
      {Edge(1, EPSILON, 2), Edge(1, EPSILON, 3), Edge(4, a, 5), Edge(2, EPSILON, 4),
       Edge(6, b, 7), Edge(3, EPSILON, 6), Edge(5, EPSILON, 8), Edge(7, EPSILON, 8)}, 1, {8}, 9)
  {
    var l, r := LiteralGraph(a), LiteralGraph(b);
    assert TheFinal(l) == 2 && TheFinal(r) == 2;
    assert ShiftEdges(l.edges, 3) == {Edge(4, a, 5)};
    assert ShiftEdges(r.edges, 5) == {Edge(6, b, 7)};
  }

  /** `concat` of two literals: `a` copied to `2 --a--> 3` behind the new
      start, `b` copied to `4 --b--> 5` behind the final of `a`. */
  lemma ConcatOfLiterals(a: char, b: char)
    ensures ConcatGraph(LiteralGraph(a), LiteralGraph(b)) == GraphValue(
      {Edge(1, EPSILON, 2), Edge(2, a, 3), Edge(3, EPSILON, 4), Edge(4, b, 5)}, 1, {5}, 6)
  {
    var l, r := LiteralGraph(a), LiteralGraph(b);
    assert TheFinal(l) == 2 && TheFinal(r) == 2;
    assert ShiftEdges(l.edges, 1) == {Edge(2, a, 3)};
    assert ShiftEdges(r.edges, 3) == {Edge(4, b, 5)};
  }

  // ---------------------------------------------------------------------
  // Languages

  /** The fragment of a literal `c` accepts exactly the one-character word
      `c`: not the empty word, and no other character. */
  lemma {:induction false} LiteralLanguage(c: char, w: string)
    requires c != EPSILON
    ensures var g := LiteralGraph(c); Accepted(g.edges, g.start, g.finals, w) <==> w == [c]
  {
    var g := LiteralGraph(c);
    if w == [c] {
      SingleStepRun(g.edges, Edge(1, c, 2));
    }
    if Accepted(g.edges, g.start, g.finals, w) {
      var p, f :| f in g.finals && IsRun(g.edges, p, 1, w, f);
      assert p[0] == Edge(1, c, 2);
      assert IsRun(g.edges, p[1..], 2, w[1..], 2);
      assert p[1..] == [];
      assert w == [c] + w[1..];
    }
  }

  /** The loop of `star` and `plus` around a literal, taken `n + 1` times. */
  function LoopPath(c: char, n: nat): seq<Edge>
  {
    if n == 0 then [Edge(3, c, 4)] else [Edge(3, c, 4), Edge(4, EPSILON, 3)] + LoopPath(c, n - 1)
  }

  /** Going round the loop `n + 1` times reads `n + 1` copies of `c`. */
  lemma {:induction false} LoopRun(edges: set<Edge>, c: char, n: nat)
    requires c != EPSILON && Edge(3, c, 4) in edges && Edge(4, EPSILON, 3) in edges
    ensures IsRun(edges, LoopPath(c, n), 3, Repeat(c, n + 1), 4)
    decreases n
  {
    if n == 0 {
      SingleStepRun(edges, Edge(3, c, 4));
    } else {
      LoopRun(edges, c, n - 1);
      var once := [Edge(3, c, 4), Edge(4, EPSILON, 3)];
      assert IsRun(edges, once, 3, [c], 3) by {
        assert once[1..] == [Edge(4, EPSILON, 3)] && once[1..][1..] == [];
        assert [c][1..] == [];
      }
      RunAppend(edges, once, 3, [c], 3, LoopPath(c, n - 1), Repeat(c, n), 4);
    }
  }

  /** From the start of `star` or `plus` around a literal, the run through
      the loop reads `n + 1` copies of `c` and reaches the final 5. */
  lemma ThroughLoop(edges: set<Edge>, c: char, n: nat)
    requires c != EPSILON
    requires {Edge(1, EPSILON, 2), Edge(2, EPSILON, 3), Edge(3, c, 4), Edge(4, EPSILON, 3), Edge(4, EPSILON, 5)} <= edges
    ensures Accepted(edges, 1, {5}, Repeat(c, n + 1))
  {
    var enter := [Edge(1, EPSILON, 2), Edge(2, EPSILON, 3)];
    assert IsRun(edges, enter, 1, [], 3) by {
      assert enter[1..] == [Edge(2, EPSILON, 3)] && enter[1..][1..] == [];
    }
    LoopRun(edges, c, n);
    RunAppend(edges, enter, 1, [], 3, LoopPath(c, n), Repeat(c, n + 1), 4);
    SingleStepRun(edges, Edge(4, EPSILON, 5));
    RunAppend(edges, enter + LoopPath(c, n), 1, [] + Repeat(c, n + 1), 4, [Edge(4, EPSILON, 5)], [], 5);
    assert [] + Repeat(c, n + 1) + [] == Repeat(c, n + 1);
  }

  /** A word of `c`s is `Repeat(c, |w|)`. */
  lemma AllSameIsRepeat(w: string, c: char)
    requires forall i :: 0 <= i < |w| ==> w[i] == c
    ensures w == Repeat(c, |w|)
  {
  }

  /** The star of a literal `c` accepts exactly the words made of `c`
      alone, the empty word included. */
  lemma StarLanguage(c: char, w: string)
    requires c != EPSILON
    ensures var g := StarGraph(LiteralGraph(c));
      Accepted(g.edges, g.start, g.finals, w) <==> w == Repeat(c, |w|)
  {
    StarOfLiteral(c);
    var g := StarGraph(LiteralGraph(c));
    if Accepted(g.edges, g.start, g.finals, w) {
      var p, f :| f in g.finals && IsRun(g.edges, p, 1, w, f);
      RunSpellsOnly(g.edges, p, 1, w, f, c);
      AllSameIsRepeat(w, c);
    }
    if w == Repeat(c, |w|) {
      if w == [] {
        SingleStepRun(g.edges, Edge(1, EPSILON, 5));
      } else {
        ThroughLoop(g.edges, c, |w| - 1);
      }
    }
  }

  /** Without reading anything, the plus of a literal stays among its
      first three vertices, short of the final 5. */
  lemma PlusRejectsEmpty(c: char)
    requires c != EPSILON
    ensures var g := PlusGraph(LiteralGraph(c)); !Accepted(g.edges, g.start, g.finals, [])
  {
    PlusOfLiteral(c);
    var edges := {Edge(1, EPSILON, 2), Edge(3, c, 4), Edge(2, EPSILON, 3), Edge(4, EPSILON, 3), Edge(4, EPSILON, 5)};
    var entry := {1, 2, 3};
    assert EpsClosed(edges, entry);
    forall p, f | IsRun(edges, p, 1, [], f)
      ensures f in entry
    {
      EpsRunStaysInClosed(edges, p, 1, f, entry);
    }
  }

  /** The plus of a literal `c` accepts exactly the non-empty words made of
      `c` alone: without the bypass the loop is taken at least once. */
  lemma PlusLanguage(c: char, w: string)
    requires c != EPSILON
    ensures var g := PlusGraph(LiteralGraph(c));
      Accepted(g.edges, g.start, g.finals, w) <==> w != [] && w == Repeat(c, |w|)
  {
    PlusOfLiteral(c);
    var g := PlusGraph(LiteralGraph(c));
    var edges := {Edge(1, EPSILON, 2), Edge(3, c, 4), Edge(2, EPSILON, 3), Edge(4, EPSILON, 3), Edge(4, EPSILON, 5)};
    assert g.edges == edges && g.start == 1 && g.finals == {5};
    if w == [] {
      PlusRejectsEmpty(c);
    } else {
      if Accepted(edges, 1, {5}, w) {
        var p, f :| f in {5} && IsRun(edges, p, 1, w, f);
        assert OnlyLabel(edges, c);
        RunSpellsOnly(edges, p, 1, w, f, c);
        AllSameIsRepeat(w, c);
      }
      if w == Repeat(c, |w|) {
        ThroughLoop(edges, c, |w| - 1);
      }
    }
  }

  /** The concatenation of two literals `a` and `b` accepts exactly the word
      `ab`: the graph is a single chain from 1 to 5 that reads `a` and then
      `b`. */
  lemma {:induction false} ConcatLanguage(a: char, b: char, w: string)
    requires a != EPSILON && b != EPSILON
    ensures var g := ConcatGraph(LiteralGraph(a), LiteralGraph(b));
      Accepted(g.edges, g.start, g.finals, w) <==> w == [a, b]
  {
    ConcatOfLiterals(a, b);
    var edges := {Edge(1, EPSILON, 2), Edge(2, a, 3), Edge(3, EPSILON, 4), Edge(4, b, 5)};
    if w == [a, b] {
      var chain := [Edge(1, EPSILON, 2), Edge(2, a, 3), Edge(3, EPSILON, 4), Edge(4, b, 5)];
      assert IsRun(edges, chain, 1, [a, b], 5) by {
        assert [a, b][1..] == [b] && [b][1..] == [];
        assert IsRun(edges, chain[3..], 4, [b], 5) by { assert chain[3..][1..] == []; }
        assert IsRun(edges, chain[2..], 3, [b], 5) by { assert chain[2..][1..] == chain[3..]; }
        assert IsRun(edges, chain[1..], 2, [a, b], 5) by { assert chain[1..][1..] == chain[2..]; }
      }
    }
    if Accepted(edges, 1, {5}, w) {
      var p, f :| f in {5} && IsRun(edges, p, 1, w, f);
      assert p[0] == Edge(1, EPSILON, 2);
      var p1 := p[1..];
      assert IsRun(edges, p1, 2, w, 5);
      assert p1[0] == Edge(2, a, 3);
      var p2, w2 := p1[1..], w[1..];
      assert w != [] && w[0] == a && IsRun(edges, p2, 3, w2, 5);
      assert p2[0] == Edge(3, EPSILON, 4);
      var p3 := p2[1..];
      assert IsRun(edges, p3, 4, w2, 5);
      assert p3[0] == Edge(4, b, 5);
      assert w2 != [] && w2[0] == b && IsRun(edges, p3[1..], 5, w2[1..], 5);
      assert p3[1..] == [];
      assert w == [w[0]] + [w2[0]] + w2[1..];
    }
  }

  /** The alternative of two literals accepts each of them: one branch
      reads `a`, the other `b`. */
  lemma AlternativeAcceptsEach(a: char, b: char)
    requires a != EPSILON && b != EPSILON
    ensures var g := OrGraph(LiteralGraph(a), LiteralGraph(b));
      Accepted(g.edges, g.start, g.finals, [a]) && Accepted(g.edges, g.start, g.finals, [b])
  {
    OrOfLiterals(a, b);
    var edges := {Edge(1, EPSILON, 2), Edge(1, EPSILON, 3), Edge(4, a, 5), Edge(2, EPSILON, 4),
                  Edge(6, b, 7), Edge(3, EPSILON, 6), Edge(5, EPSILON, 8), Edge(7, EPSILON, 8)};
    var left := [Edge(1, EPSILON, 2), Edge(2, EPSILON, 4), Edge(4, a, 5), Edge(5, EPSILON, 8)];
    assert IsRun(edges, left, 1, [a], 8) by {
      assert [a][1..] == [];
      assert IsRun(edges, left[3..], 5, [], 8) by { assert left[3..][1..] == []; }
      assert IsRun(edges, left[2..], 4, [a], 8) by { assert left[2..][1..] == left[3..]; }
      assert IsRun(edges, left[1..], 2, [a], 8) by { assert left[1..][1..] == left[2..]; }
    }
    var right := [Edge(1, EPSILON, 3), Edge(3, EPSILON, 6), Edge(6, b, 7), Edge(7, EPSILON, 8)];
    assert IsRun(edges, right, 1, [b], 8) by {
      assert [b][1..] == [];
      assert IsRun(edges, right[3..], 7, [], 8) by { assert right[3..][1..] == []; }
      assert IsRun(edges, right[2..], 6, [b], 8) by { assert right[2..][1..] == right[3..]; }
      assert IsRun(edges, right[1..], 3, [b], 8) by { assert right[1..][1..] == right[2..]; }
    }
  }

  /** The alternative of two literals rejects the empty word and every
      single character other than the two: before reading, a run is among
      the vertices 1, 2, 3, 4 and 6, and no transition out of them reads
      such a character. */
  lemma AlternativeRejectsOthers(a: char, b: char, d: char)
    requires a != EPSILON && b != EPSILON && d != EPSILON
    ensures var g := OrGraph(LiteralGraph(a), LiteralGraph(b));
      && !Accepted(g.edges, g.start, g.finals, [])
      && (d != a && d != b ==> !Accepted(g.edges, g.start, g.finals, [d]))
  {
    OrOfLiterals(a, b);
    var edges := {Edge(1, EPSILON, 2), Edge(1, EPSILON, 3), Edge(4, a, 5), Edge(2, EPSILON, 4),
                  Edge(6, b, 7), Edge(3, EPSILON, 6), Edge(5, EPSILON, 8), Edge(7, EPSILON, 8)};
    var entry := {1, 2, 3, 4, 6};
    assert EpsClosed(edges, entry);
    forall p, f | IsRun(edges, p, 1, [], f)
      ensures f in entry
    {
      EpsRunStaysInClosed(edges, p, 1, f, entry);
    }
    if d != a && d != b {
      forall p, f | IsRun(edges, p, 1, [d], f)
        ensures f in entry
      {
        ReadOneEndsIn(edges, p, 1, d, f, entry, entry);
      }
    }
  }

  // ---------------------------------------------------------------------
  // The compiled patterns

  /** `a` accepts "a" and rejects "b" and the empty word. */
  lemma CompiledLiteralAccepts()
    ensures Compile("a").Success?
    ensures var g := Compile("a").value;
      && Accepted(g.edges, g.start, g.finals, "a")
      && !Accepted(g.edges, g.start, g.finals, "b")
      && !Accepted(g.edges, g.start, g.finals, "")
  {
    CompileLiteral('a');
    LiteralLanguage('a', "a");
    LiteralLanguage('a', "b");
    LiteralLanguage('a', "");
  }

  /** `ab` accepts "ab" and rejects "a", "b", "ba" and the empty word. */
  lemma CompiledConcatAccepts()
    ensures Compile("ab").Success?
    ensures var g := Compile("ab").value;
      && Accepted(g.edges, g.start, g.finals, "ab")
      && !Accepted(g.edges, g.start, g.finals, "a")
      && !Accepted(g.edges, g.start, g.finals, "b")
      && !Accepted(g.edges, g.start, g.finals, "ba")
      && !Accepted(g.edges, g.start, g.finals, "")
  {
    CompileConcat();
    ConcatLanguage('a', 'b', "ab");
    ConcatLanguage('a', 'b', "a");
    ConcatLanguage('a', 'b', "b");
    ConcatLanguage('a', 'b', "ba");
    ConcatLanguage('a', 'b', "");
  }

  /** `a|b` accepts "a" and "b" and rejects "c". */
  lemma CompiledAlternativeAccepts()
    ensures Compile("a|b").Success?
    ensures var g := Compile("a|b").value;
      && Accepted(g.edges, g.start, g.finals, "a")
      && Accepted(g.edges, g.start, g.finals, "b")
      && !Accepted(g.edges, g.start, g.finals, "c")
  {
    CompileAlternative();
    AlternativeAcceptsEach('a', 'b');
    AlternativeRejectsOthers('a', 'b', 'c');
  }

  /** `a*` accepts the empty word and "aaaa", and rejects "ab". */
  lemma CompiledStarAccepts()
    ensures Compile("a*").Success?
    ensures var g := Compile("a*").value;
      && Accepted(g.edges, g.start, g.finals, "")
      && Accepted(g.edges, g.start, g.finals, "aaaa")
      && !Accepted(g.edges, g.start, g.finals, "ab")
  {
    CompileStar();
    StarLanguage('a', "");
    StarLanguage('a', "aaaa");
    assert Repeat('a', 4) == "aaaa";
    StarLanguage('a', "ab");
    assert "ab"[1] != 'a';
  }

  /** `a+` rejects the empty word and accepts "a" and "aaa". */
  lemma CompiledPlusAccepts()
    ensures Compile("a+").Success?
    ensures var g := Compile("a+").value;
      && !Accepted(g.edges, g.start, g.finals, "")
      && Accepted(g.edges, g.start, g.finals, "a")
      && Accepted(g.edges, g.start, g.finals, "aaa")
  {
    CompilePlus();
    PlusLanguage('a', "");
    PlusLanguage('a', "a");
    assert Repeat('a', 1) == "a";
    PlusLanguage('a', "aaa");
    assert Repeat('a', 3) == "aaa";
  }
}

=== FILE: adjacency_graph.dfy ===
/**
  The generic adjacency graph: a dictionary from node data to the node that
  carries it, each node keeping its labelled neighbours. Node data plays the
  role of the key type `T`; labels are `char` (see `NodeModule`).
 */
module AdjacencyGraph {
  import opened Wrappers
  import opened NodeModule

  /** `std::invalid_argument` for a duplicate node or a missing endpoint;
      `std::out_of_range` from the neighbour lookup in `add_neighbor`. */
  datatype GraphError = InvalidArgument | OutOfRange

  class Graph<T(==,!new)> {
    var nodes: map<T, Node<T>>

    /** Every node is stored under its own data (so distinct keys hold
        distinct nodes), and every neighbour is a node of this graph. */
    ghost predicate Valid()
      reads this, nodes.Values
    {
      && (forall k :: k in nodes ==> nodes[k].data == k)
      && (forall k, n :: k in nodes && n in nodes[k].neighbors ==> n in nodes.Values)
    }

    constructor ()
      ensures Valid() && nodes == map[]
    {
      nodes := map[];
    }

    /** `has_node(data)`. */
    predicate HasNode(data: T)
      reads this
      ensures HasNode(data) <==> data in nodes.Keys
    {
      data in nodes
    }

    /** `has_edge(data1, data2)`: both nodes exist and the node of `data2`
        is a neighbour of the node of `data1`; false when either is
        missing. */
    predicate HasEdge(data1: T, data2: T)
      reads this, nodes.Values
      ensures HasEdge(data1, data2) ==> HasNode(data1) && HasNode(data2)
    {
      HasNode(data1) && HasNode(data2) && nodes[data1].IsNeighbor(nodes[data2])
    }

    /** `add_node(data)`: refuses a duplicate, otherwise stores a fresh node
        with no neighbours. Either way no edge appears or disappears. */
    method AddNode(data: T) returns (r: Result<(), GraphError>)
      requires Valid()
      modifies this
      ensures Valid() && HasNode(data)
      ensures r.Failure? <==> old(HasNode(data))
      ensures r.Failure? ==> r.error == InvalidArgument && nodes == old(nodes)
      ensures r.Success? ==> nodes.Keys == old(nodes).Keys + {data}
      ensures r.Success? ==> fresh(nodes[data]) && nodes[data].data == data && nodes[data].neighbors == map[]
      ensures forall k :: k in old(nodes) ==> k in nodes && nodes[k] == old(nodes)[k]
      ensures forall a, b :: HasEdge(a, b) <==> old(HasEdge(a, b))
    {
      if HasNode(data) {
        return Failure(InvalidArgument);
      }
      var node := new Node(data);
      nodes := nodes[data := node];
      forall v | v in old(nodes).Values
        ensures v in nodes.Values
      {
        var j :| j in old(nodes) && old(nodes)[j] == v;
        assert nodes[j] == v;
      }
      r := Success(());
    }

    /** `add_edge(data1, data2, weight)`: refuses a missing endpoint, then
        labels the edge through `add_neighbor`, which only relabels an
        existing neighbour and otherwise fails. So the set of edges never
        changes: only the label of an edge already present can. */
    method AddEdge(data1: T, data2: T, weight: char) returns (r: Result<(), GraphError>)
      requires Valid()
      modifies if data1 in nodes then {nodes[data1]} else {}
      ensures Valid() && nodes == old(nodes)
      ensures !(old(HasNode(data1)) && old(HasNode(data2))) ==> r == Failure(InvalidArgument)
      ensures old(HasNode(data1)) && old(HasNode(data2)) ==>
                r == if old(HasEdge(data1, data2)) then Success(()) else Failure(GraphError.OutOfRange)
      ensures r.Success? ==> nodes[data1].neighbors == old(nodes[data1].neighbors)[nodes[data2] := weight]
      ensures r.Failure? ==> forall k :: k in nodes ==> nodes[k].neighbors == old(nodes[k].neighbors)
      ensures forall a, b :: HasEdge(a, b) <==> old(HasEdge(a, b))
    {
      if !HasNode(data1) || !HasNode(data2) {
        return Failure(InvalidArgument);
      }
      var added := nodes[data1].AddNeighborLabelled(nodes[data2], weight);
      if added.Failure? {
        return Failure(GraphError.OutOfRange);
      }
      r := Success(());
    }

    /** What `add_edge` is meant to do: with both endpoints present, make
        `data2` a neighbour of `data1` labelled `weight`, leaving every other
        edge as it was. */
    method AddEdgeIntended(data1: T, data2: T, weight: char) returns (r: Result<(), GraphError>)
      requires Valid()
      modifies if data1 in nodes then {nodes[data1]} else {}
      ensures Valid() && nodes == old(nodes)
      ensures r.Success? <==> old(HasNode(data1)) && old(HasNode(data2))
      ensures r.Failure? ==> r.error == InvalidArgument
      ensures r.Success? ==> HasEdge(data1, data2) && nodes[data1].neighbors[nodes[data2]] == weight
      ensures forall a, b :: a != data1 || b != data2 ==> (HasEdge(a, b) <==> old(HasEdge(a, b)))
    {
      if !HasNode(data1) || !HasNode(data2) {
        return Failure(InvalidArgument);
      }
      nodes[data1].InsertNeighbor(nodes[data2], weight);
      r := Success(());
    }

    /** The checks `operator==` makes for the node stored under `k`: the
        other graph has `k`, with as many neighbours, and has an edge from
        `k` to the data of each of this node's neighbours. */
    ghost predicate NodeMatches(other: Graph<T>, k: T)
      requires Valid() && k in nodes
      reads this, nodes.Values, other, other.nodes.Values
    {
      && k in other.nodes
      && |nodes[k].neighbors| == |other.nodes[k].neighbors|
      && forall n :: n in nodes[k].neighbors ==> other.HasEdge(k, n.data)
    }

    /** `operator==`: as many nodes, and every node matches. */
    ghost predicate SameAs(other: Graph<T>)
      requires Valid()
      reads this, nodes.Values, other, other.nodes.Values
    {
      && |nodes| == |other.nodes|
      && forall k :: k in nodes ==> NodeMatches(other, k)
    }

    /** `operator==`, node by node and neighbour by neighbour, stopping at
        the first mismatch. */
    method Equals(other: Graph<T>) returns (r: bool)
      requires Valid()
      ensures r <==> SameAs(other)
    {
      if |nodes| != |other.nodes| {
        return false;
      }
      var todo := nodes.Keys;
      while todo != {}
        invariant todo <= nodes.Keys
        invariant forall k :: k in nodes.Keys - todo ==> NodeMatches(other, k)
        decreases |todo|
      {
        var k :| k in todo;
        if k !in other.nodes {
          return false;
        }
        if |nodes[k].neighbors| != |other.nodes[k].neighbors| {
          return false;
        }
        var pending := nodes[k].neighbors.Keys;
        while pending != {}
          invariant pending <= nodes[k].neighbors.Keys
          invariant forall n :: n in nodes[k].neighbors.Keys - pending ==> other.HasEdge(k, n.data)
          decreases |pending|
        {
          var n :| n in pending;
          if !other.HasEdge(k, n.data) {
            return false;
          }
          pending := pending - {n};
        }
        todo := todo - {k};
      }
      r := true;
    }

    /** `operator!=`: the negation of `operator==`. */
    method NotEquals(other: Graph<T>) returns (r: bool)
      requires Valid()
      ensures r <==> !SameAs(other)
    {
      var same := Equals(other);
      r := !same;
    }

    /** Every well-formed graph compares equal to itself: a neighbour is a
        node of the graph, stored under its own data. */
    lemma SameAsReflexive()
      requires Valid()
      ensures SameAs(this)
    {
      forall k | k in nodes
        ensures NodeMatches(this, k)
      {
        forall n | n in nodes[k].neighbors
          ensures HasEdge(k, n.data)
        {
          assert n in nodes.Values;
          var j :| j in nodes && nodes[j] == n;
          assert n.data == j;
        }
      }
    }

    /** Graphs that compare equal have the same node keys: each key of this
        graph is a key of the other, and there are as many. */
    lemma SameAsSameKeys(other: Graph<T>)
      requires Valid() && SameAs(other)
      ensures nodes.Keys == other.nodes.Keys
    {
      assert nodes.Keys <= other.nodes.Keys by {
        forall k | k in nodes ensures k in other.nodes {
          assert NodeMatches(other, k);
        }
      }
      var extra := other.nodes.Keys - nodes.Keys;
      assert other.nodes.Keys == nodes.Keys + extra;
      assert |other.nodes.Keys| == |nodes.Keys| + |extra|;
      assert |extra| == 0;
    }
  }

  /** On two fresh nodes, `add_edge` cannot link them: the neighbour lookup
      fails, so the edge is never created. */
  method AddEdgeNeverLinks() returns (r: Result<(), GraphError>, linked: bool)
    ensures r == Failure(GraphError.OutOfRange) && !linked
  {
    var g := new Graph<int>();
    var _ := g.AddNode(1);
    var _ := g.AddNode(2);
    r := g.AddEdge(1, 2, 'a');
    linked := g.HasEdge(1, 2);
  }

  /** The intended `add_edge` on the same two nodes links them with the
      given label. */
  method AddEdgeIntendedLinks() returns (r: Result<(), GraphError>, linked: bool, weight: char)
    ensures r.Success? && linked && weight == 'a'
  {
    var g := new Graph<int>();
    var _ := g.AddNode(1);
    var _ := g.AddNode(2);
    r := g.AddEdgeIntended(1, 2, 'a');
    linked := g.HasEdge(1, 2);
    weight := g.nodes[1].neighbors[g.nodes[2]];
  }
}

=== FILE: automata.dfy ===
/**
  The infix regular-expression compiler. `Build` scans the pattern once,
  keeping a stack of pending operators and a stack of NFA fragments; the
  four Thompson constructions (`Star`, `Plus`, `Concat`, `OrOperator`) each
  build a fresh graph that copies its operands in under fresh ids.

  Fragments are `GraphValue` snapshots. The closed forms `LiteralGraph`,
  `StarGraph`, `PlusGraph`, `ConcatGraph` and `OrGraph` give the exact graph
  each construction produces: since every construction starts from an empty
  graph, the ids it hands out are fixed (the new start is always 1, and an
  operand copied in while the next free id is `n` has its ids moved up by
  `n - 1`).
 */
module Automata {
  import opened Wrappers
  import opened Semantics
  import opened VertexGraph

  /** The implicit concatenation operator. */
  const CONCAT_OPERATOR: char := '.'

  /** Whether the last token scanned can end an operand. */
  datatype TokenType = Operator | Operand

  /** The one way compilation can go wrong: an operator (or the end of the
      pattern) needs a fragment from an empty fragment stack. */
  datatype BuildError = MissingOperand

  // ---------------------------------------------------------------------
  // The graphs the constructions produce

  /** The fragment for one literal character: `1 --c--> 2`, with 2 final. */
  function LiteralGraph(c: char): (r: GraphValue)
    ensures IsFragment(r) && r.start == 1 && r.finals == {2}
    ensures forall e :: e in r.edges <==> e == Edge(r.start, c, 2)
  {
    GraphValue({Edge(1, c, 2)}, 1, {2}, 3)
  }

  /** `star(f)`: a new start 1 with an EPSILON edge to 2, where `f` is
      copied in under ids moved up by 2; an EPSILON loop from the copy's
      final back to the copy's start; and a new final `f.nextId + 2` reached
      by EPSILON from the start (the bypass) and from the copy's final. */
  ghost function StarGraph(f: GraphValue): (r: GraphValue)
    requires IsFragment(f)
  {
    var s, e, end := f.start + 2, TheFinal(f) + 2, f.nextId + 2;
    GraphValue({Edge(1, EPSILON, 2)} + ShiftEdges(f.edges, 2)
               + {Edge(2, EPSILON, s), Edge(e, EPSILON, s), Edge(1, EPSILON, end), Edge(e, EPSILON, end)},
               1, {end}, f.nextId + 3)
  }

  /** `plus(f)`: the graph of `star(f)` without the bypass. */
  ghost function PlusGraph(f: GraphValue): (r: GraphValue)
    requires IsFragment(f)
  {
    var s, e, end := f.start + 2, TheFinal(f) + 2, f.nextId + 2;
    GraphValue({Edge(1, EPSILON, 2)} + ShiftEdges(f.edges, 2)
               + {Edge(2, EPSILON, s), Edge(e, EPSILON, s), Edge(e, EPSILON, end)},
               1, {end}, f.nextId + 3)
  }

  /** `concat(l, r)`: a new start 1; `l` copied in under ids moved up by 1
      and entered from 1; `r` copied in under ids moved up by `l.nextId` and
      entered from the copy of `l`'s final; the copy of `r`'s final is the
      only final. */
  ghost function ConcatGraph(l: GraphValue, r: GraphValue): (g: GraphValue)
    requires IsFragment(l) && IsFragment(r)
  {
    GraphValue({Edge(1, EPSILON, l.start + 1)} + ShiftEdges(l.edges, 1)
               + {Edge(TheFinal(l) + 1, EPSILON, r.start + l.nextId)} + ShiftEdges(r.edges, l.nextId),
               1, {TheFinal(r) + l.nextId}, l.nextId + r.nextId)
  }

  /** `or_operator(l, r)`: a new start 1 with EPSILON edges to two entry
      vertices 2 and 3; `l` copied in under ids moved up by 3 and entered
      from 2; `r` copied in under ids moved up by `l.nextId + 2` and entered
      from 3; EPSILON edges from both copied finals to a new final. */
  ghost function OrGraph(l: GraphValue, r: GraphValue): (g: GraphValue)
    requires IsFragment(l) && IsFragment(r)
  {
    var offR := l.nextId + 2;
    var end := l.nextId + r.nextId + 2;
    GraphValue({Edge(1, EPSILON, 2), Edge(1, EPSILON, 3)}
               + ShiftEdges(l.edges, 3) + {Edge(2, EPSILON, l.start + 3)}
               + ShiftEdges(r.edges, offR) + {Edge(3, EPSILON, r.start + offR)}
               + {Edge(TheFinal(l) + 3, EPSILON, end), Edge(TheFinal(r) + offR, EPSILON, end)},
               1, {end}, end + 1)
  }

  /** The graph `star` builds, with the vertices it creates named as it
      names them: `start` and `next`, the copy of `f` (moved up by `off`)
      entered at `newStart` and left at `newEnd`, and the new final `end`. */
  lemma StarSteps(f: GraphValue, start: int, next: int, off: int, newStart: int, newEnd: int, end: int, r: GraphValue)
    requires IsFragment(f)
    requires start == 1 && next == 2 && off == 2
    requires newStart == f.start + off && newEnd - off in f.finals && end == f.nextId + off
    requires r.nextId == end + 1 && r.start == start && r.finals == {end}
    requires r.edges == {Edge(start, EPSILON, next)} + ShiftEdges(f.edges, off) + {Edge(next, EPSILON, newStart)}
                      + {Edge(newEnd, EPSILON, newStart)} + {Edge(start, EPSILON, end)} + {Edge(newEnd, EPSILON, end)}
    ensures r == StarGraph(f)
  {
  }

  /** The graph `plus` builds: as `StarSteps`, without `start -> end`. */
  lemma PlusSteps(f: GraphValue, start: int, next: int, off: int, newStart: int, newEnd: int, end: int, r: GraphValue)
    requires IsFragment(f)
    requires start == 1 && next == 2 && off == 2
    requires newStart == f.start + off && newEnd - off in f.finals && end == f.nextId + off
    requires r.nextId == end + 1 && r.start == start && r.finals == {end}
    requires r.edges == {Edge(start, EPSILON, next)} + ShiftEdges(f.edges, off) + {Edge(next, EPSILON, newStart)}
                      + {Edge(newEnd, EPSILON, newStart)} + {Edge(newEnd, EPSILON, end)}
    ensures r == PlusGraph(f)
  {
  }

  /** The graph `concat` builds: `start`, the copy of `l` moved up by
      `offL` and entered from `start`, the copy of `r` moved up by `offR`
      and entered from the copy of `l`'s final `newLeftEnd`. */
  lemma ConcatSteps(l: GraphValue, r: GraphValue, start: int, offL: int, newLeftStart: int, newLeftEnd: int,
                    offR: int, newRightStart: int, newRightEnd: int, g: GraphValue)
    requires IsFragment(l) && IsFragment(r)
    requires start == 1 && offL == 1 && offR == l.nextId
    requires newLeftStart == l.start + offL && newLeftEnd - offL in l.finals
    requires newRightStart == r.start + offR && newRightEnd - offR in r.finals
    requires g.nextId == offR + r.nextId && g.start == start && g.finals == {newRightEnd}
    requires g.edges == ShiftEdges(l.edges, offL) + {Edge(start, EPSILON, newLeftStart)}
                      + ShiftEdges(r.edges, offR) + {Edge(newLeftEnd, EPSILON, newRightStart)}
    ensures g == ConcatGraph(l, r)
  {
  }

  /** The graph `or_operator` builds: `start` with EPSILON edges to
      `nextLeft` and `nextRight`, which enter the copies of `l` (moved up by
      `offL`) and `r` (moved up by `offR`); both copied finals lead to the
      new final `end`. */
  lemma OrSteps(l: GraphValue, r: GraphValue, start: int, nextLeft: int, nextRight: int,
                offL: int, newLeftStart: int, newLeftEnd: int, offR: int, newRightStart: int, newRightEnd: int,
                end: int, g: GraphValue)
    requires IsFragment(l) && IsFragment(r)
    requires start == 1 && nextLeft == 2 && nextRight == 3 && offL == 3 && offR == l.nextId + 2
    requires newLeftStart == l.start + offL && newLeftEnd - offL in l.finals
    requires newRightStart == r.start + offR && newRightEnd - offR in r.finals
    requires end == offR + r.nextId
    requires g.nextId == end + 1 && g.start == start && g.finals == {end}
    requires g.edges == {Edge(start, EPSILON, nextLeft)} + {Edge(start, EPSILON, nextRight)}
                      + ShiftEdges(l.edges, offL) + {Edge(nextLeft, EPSILON, newLeftStart)}
                      + ShiftEdges(r.edges, offR) + {Edge(nextRight, EPSILON, newRightStart)}
                      + {Edge(newLeftEnd, EPSILON, end)} + {Edge(newRightEnd, EPSILON, end)}
    ensures g == OrGraph(l, r)
  {
  }

  // ---------------------------------------------------------------------
  // Properties of the constructions

  /** `star` turns a fragment into a fragment with three more vertices. */
  lemma StarIsFragment(f: GraphValue)
    requires IsFragment(f)
    ensures IsFragment(StarGraph(f)) && StarGraph(f).nextId == f.nextId + 3
  {
    var r := StarGraph(f);
    assert TheFinal(f) in f.finals;
    forall e | e in r.edges
      ensures EdgeWithin(r, e)
    {
      if e in ShiftEdges(f.edges, 2) {
        ShiftedEdgeWithin(f, 2, e);
      }
    }
  }

  /** `plus` turns a fragment into a fragment with three more vertices. */
  lemma PlusIsFragment(f: GraphValue)
    requires IsFragment(f)
    ensures IsFragment(PlusGraph(f)) && PlusGraph(f).nextId == f.nextId + 3
  {
    var r := PlusGraph(f);
    assert TheFinal(f) in f.finals;
    forall e | e in r.edges
      ensures EdgeWithin(r, e)
    {
      if e in ShiftEdges(f.edges, 2) {
        ShiftedEdgeWithin(f, 2, e);
      }
    }
  }

  /** `concat` joins two fragments into one, one vertex more than both. */
  lemma ConcatIsFragment(l: GraphValue, r: GraphValue)
    requires IsFragment(l) && IsFragment(r)
    ensures IsFragment(ConcatGraph(l, r)) && ConcatGraph(l, r).nextId == l.nextId + r.nextId
  {
    var g := ConcatGraph(l, r);
    assert TheFinal(l) in l.finals && TheFinal(r) in r.finals;
    forall e | e in g.edges
      ensures EdgeWithin(g, e)
    {
      if e in ShiftEdges(l.edges, 1) {
        ShiftedEdgeWithin(l, 1, e);
      } else if e in ShiftEdges(r.edges, l.nextId) {
        ShiftedEdgeWithin(r, l.nextId, e);
      }
    }
  }

  /** `or_operator` joins two fragments into one, three vertices more than
      both. */
  lemma OrIsFragment(l: GraphValue, r: GraphValue)
    requires IsFragment(l) && IsFragment(r)
    ensures IsFragment(OrGraph(l, r)) && OrGraph(l, r).nextId == l.nextId + r.nextId + 3
  {
    var g := OrGraph(l, r);
    assert TheFinal(l) in l.finals && TheFinal(r) in r.finals;
    forall e | e in g.edges
      ensures EdgeWithin(g, e)
    {
      if e in ShiftEdges(l.edges, 3) {
        ShiftedEdgeWithin(l, 3, e);
      } else if e in ShiftEdges(r.edges, l.nextId + 2) {
        ShiftedEdgeWithin(r, l.nextId + 2, e);
      }
    }
  }

  /** `plus` builds exactly the graph of `star` without the bypass
      `1 --EPSILON--> end`, and the bypass is the only transition `star`
      adds from its start straight to its final. */
  lemma {:induction false} PlusIsStarWithoutBypass(f: GraphValue)
    requires IsFragment(f)
    ensures Edge(1, EPSILON, f.nextId + 2) in StarGraph(f).edges
    ensures Edge(1, EPSILON, f.nextId + 2) !in PlusGraph(f).edges
    ensures PlusGraph(f) == StarGraph(f).(edges := StarGraph(f).edges - {Edge(1, EPSILON, f.nextId + 2)})
  {
    var bypass := Edge(1, EPSILON, f.nextId + 2);
    if bypass in ShiftEdges(f.edges, 2) {
      ShiftedEdgeWithin(f, 2, bypass);
    }
    assert TheFinal(f) in f.finals;
    var p, s := PlusGraph(f), StarGraph(f);
    assert p.edges == s.edges - {bypass};
  }

  // ---------------------------------------------------------------------
  // The compiler as a state machine

  /** What `build` tracks between two characters of the pattern: the two
      stacks (top last), the alphabet and the kind of the last token. */
  datatype State = State(expressions: seq<GraphValue>, operators: seq<char>, alphabet: set<char>, last: TokenType)

  /** Every fragment on the stack is a fragment. */
  ghost predicate AllFragments(exprs: seq<GraphValue>)
  {
    forall i :: 0 <= i < |exprs| ==> IsFragment(exprs[i])
  }

  /** How many fragments `apply_operator(op)` pops. */
  function Arity(op: char): nat
  {
    if op == '*' || op == '+' then 1
    else if op == CONCAT_OPERATOR || op == '|' then 2
    else 0
  }

  /** The fragment stack after `apply_operator(op)`: `*` and `+` replace the
      top fragment, `.` and `|` replace the top two (the top is the right
      operand), and any other character leaves the stack alone. Popping
      from an empty stack is a failure. */
  ghost function Applied(exprs: seq<GraphValue>, op: char): (r: Result<seq<GraphValue>, BuildError>)
    requires AllFragments(exprs)
    ensures r.Success? <==> Arity(op) <= |exprs|
    ensures r.Success? ==> AllFragments(r.value)
    ensures r.Success? ==> |r.value| == |exprs| - (if Arity(op) == 2 then 1 else 0)
    ensures r.Success? ==> r.value[..|exprs| - Arity(op)] == exprs[..|exprs| - Arity(op)]
  {
    var n := |exprs|;
    if op == '*' || op == '+' then
      if n == 0 then Failure(MissingOperand)
      else
        var f := exprs[n - 1];
        StarIsFragment(f);
        PlusIsFragment(f);
        Success(exprs[..n - 1] + [if op == '*' then StarGraph(f) else PlusGraph(f)])
    else if op == CONCAT_OPERATOR || op == '|' then
      if n < 2 then Failure(MissingOperand)
      else
        var left, right := exprs[n - 2], exprs[n - 1];
        ConcatIsFragment(left, right);
        OrIsFragment(left, right);
        Success(exprs[..n - 2] + [if op == '|' then OrGraph(left, right) else ConcatGraph(left, right)])
    else
      Success(exprs)
  }

  ghost predicate ValidState(st: State)
  {
    AllFragments(st.expressions)
  }

  /** What `)` does to the stacks: pop operators and apply them until the
      first `(` is popped, or until the operator stack is empty. */
  ghost function CloseGroup(st: State): (r: Result<State, BuildError>)
    requires ValidState(st)
    ensures r.Success? ==> ValidState(r.value) && r.value.alphabet == st.alphabet && r.value.last == st.last
    decreases |st.operators|
  {
    if st.operators == [] then Success(st)
    else
      var op, rest := st.operators[|st.operators| - 1], st.operators[..|st.operators| - 1];
      if op == '(' then Success(st.(operators := rest))
      else match Applied(st.expressions, op)
        case Failure(e) => Failure(e)
        case Success(exprs) => CloseGroup(st.(expressions := exprs, operators := rest))
  }

  /** The end of `build`: pop and apply every pending operator, top first. */
  ghost function Drain(st: State): (r: Result<State, BuildError>)
    requires ValidState(st)
    ensures r.Success? ==> ValidState(r.value) && r.value.operators == [] && r.value.alphabet == st.alphabet
    decreases |st.operators|
  {
    if st.operators == [] then Success(st)
    else
      var op, rest := st.operators[|st.operators| - 1], st.operators[..|st.operators| - 1];
      match Applied(st.expressions, op)
        case Failure(e) => Failure(e)
        case Success(exprs) => Drain(st.(expressions := exprs, operators := rest))
  }

  /** One character of the pattern. It fails only when `*` or `+` finds no
      fragment, or when `)` applies an operator that finds too few; the
      alphabet gains exactly the literal characters other than EPSILON. */
  ghost function Step(st: State, c: char): (r: Result<State, BuildError>)
    requires ValidState(st)
    ensures r.Success? ==> ValidState(r.value)
    ensures r.Failure? <==> ((c == '*' || c == '+') && st.expressions == []) || (c == ')' && CloseGroup(st).Failure?)
    ensures r.Success? ==> r.value.alphabet == st.alphabet + (if IsLiteral(c) && c != EPSILON then {c} else {})
  {
    var concat := if st.last == Operand then [CONCAT_OPERATOR] else [];
    if c == '(' then
      Success(st.(operators := st.operators + concat + [c], last := Operator))
    else if c == ')' then
      match CloseGroup(st)
        case Failure(e) => Failure(e)
        case Success(s) => Success(s.(last := Operand))
    else if c == '*' || c == '+' then
      match Applied(st.expressions, c)
        case Failure(e) => Failure(e)
        case Success(exprs) => Success(st.(expressions := exprs))
    else if c == CONCAT_OPERATOR || c == '|' then
      Success(st.(operators := st.operators + [c], last := Operator))
    else
      Success(State(st.expressions + [LiteralGraph(c)], st.operators + concat,
                    st.alphabet + (if c != EPSILON then {c} else {}), Operand))
  }

  /** The characters of `p` that `build` adds to the alphabet. */
  function LiteralsOf(p: string): set<char>
  {
    set c | c in p && IsLiteral(c) && c != EPSILON
  }

  /** The state after scanning all of `p`. */
  ghost function Scan(st: State, p: string): (r: Result<State, BuildError>)
    requires ValidState(st)
    ensures r.Success? ==> ValidState(r.value)
    decreases |p|
  {
    if p == [] then Success(st)
    else
      match Scan(st, p[..|p| - 1])
        case Failure(e) => Failure(e)
        case Success(s) => Step(s, p[|p| - 1])
  }

  /** A successful scan of `p` adds exactly the literals of `p` to the
      alphabet. */
  lemma {:induction false} ScanAlphabet(st: State, p: string)
    requires ValidState(st)
    ensures Scan(st, p).Success? ==> Scan(st, p).value.alphabet == st.alphabet + LiteralsOf(p)
    decreases |p|
  {
    if p != [] {
      var q, c := p[..|p| - 1], p[|p| - 1];
      ScanAlphabet(st, q);
      assert p == q + [c];
      assert LiteralsOf(p) == LiteralsOf(q) + (if IsLiteral(c) && c != EPSILON then {c} else {});
    }
  }

  /** The state `build` leaves: the pattern scanned, the operators drained. */
  ghost function Finish(st: State, p: string): (r: Result<State, BuildError>)
    requires ValidState(st)
    ensures r.Success? ==> ValidState(r.value) && r.value.operators == []
  {
    match Scan(st, p)
      case Failure(e) => Failure(e)
      case Success(s) => Drain(s)
  }

  /** The graph `build` returns: the top fragment once the pattern is
      scanned and the operators drained. */
  ghost function Compiled(st: State, p: string): (r: Result<GraphValue, BuildError>)
    requires ValidState(st)
    ensures r.Success? ==> IsFragment(r.value)
  {
    match Finish(st, p)
      case Failure(e) => Failure(e)
      case Success(s) =>
        if s.expressions == [] then Failure(MissingOperand)
        else Success(s.expressions[|s.expressions| - 1])
  }

  /** A character `build` treats as a literal: any but the six operators. */
  predicate IsLiteral(c: char)
  {
    c != '(' && c != ')' && c != '*' && c != '+' && c != CONCAT_OPERATOR && c != '|'
  }

  /** `Step`, case by case. */
  lemma StepOpen(st: State)
    requires ValidState(st)
    ensures Step(st, '(') == Success(st.(operators := st.operators + (if st.last == Operand then [CONCAT_OPERATOR] else []) + ['('], last := Operator))
  {
  }

  lemma StepClose(st: State)
    requires ValidState(st)
    ensures CloseGroup(st).Failure? ==> Step(st, ')').Failure?
    ensures CloseGroup(st).Success? ==> Step(st, ')') == Success(CloseGroup(st).value.(last := Operand))
  {
  }

  lemma StepUnary(st: State, c: char)
    requires ValidState(st) && (c == '*' || c == '+')
    ensures Applied(st.expressions, c).Failure? ==> Step(st, c).Failure?
    ensures Applied(st.expressions, c).Success? ==> Step(st, c) == Success(st.(expressions := Applied(st.expressions, c).value))
  {
  }

  lemma StepBinary(st: State, c: char)
    requires ValidState(st) && (c == CONCAT_OPERATOR || c == '|')
    ensures Step(st, c) == Success(st.(operators := st.operators + [c], last := Operator))
  {
  }

  lemma StepLiteral(st: State, c: char)
    requires ValidState(st) && IsLiteral(c)
    ensures Step(st, c) == Success(State(st.expressions + [LiteralGraph(c)],
      st.operators + (if st.last == Operand then [CONCAT_OPERATOR] else []), st.alphabet + (if c != EPSILON then {c} else {}), Operand))
  {
  }

  /** Scanning one more character of `p` is one more `Step`. */
  lemma ScanExtend(st: State, p: string, i: int)
    requires ValidState(st) && 0 <= i < |p|
    ensures Scan(st, p[..i]).Failure? ==> Scan(st, p[..i + 1]) == Scan(st, p[..i])
    ensures Scan(st, p[..i]).Success? ==> Scan(st, p[..i + 1]) == Step(Scan(st, p[..i]).value, p[i])
  {
    assert p[..i + 1][..i] == p[..i];
  }

  /** Once a prefix of the pattern fails, the whole pattern fails with the
      same error: `build` never recovers. */
  lemma {:induction false} ScanFailureSticks(st: State, p: string, n: int)
    requires ValidState(st) && 0 <= n <= |p| && Scan(st, p[..n]).Failure?
    ensures Scan(st, p) == Scan(st, p[..n])
    ensures Compiled(st, p) == Failure(MissingOperand)
    decreases |p|
  {
    if n < |p| {
      var q := p[..|p| - 1];
      assert q[..n] == p[..n];
      ScanFailureSticks(st, q, n);
    } else {
      assert p[..n] == p;
      assert Scan(st, p).error.MissingOperand?;
    }
  }

  /** The state of a freshly constructed automaton at the start of `build`. */
  function Initial(): State
  {
    State([], [], {}, Operator)
  }

  /** What a fresh `Automata(p).build()` returns: a fragment, or a failure. */
  ghost function Compile(p: string): (r: Result<GraphValue, BuildError>)
    ensures r.Success? ==> IsFragment(r.value)
  {
    Compiled(Initial(), p)
  }

  // ---------------------------------------------------------------------
  // What `)` does

  /** `(` does not occur in `ops`. */
  predicate NoOpen(ops: seq<char>)
  {
    forall i :: 0 <= i < |ops| ==> ops[i] != '('
  }

  /** Below a top operator other than `(`, closing a group goes on with that
      operator applied and popped. */
  lemma CloseGroupPop(st: State) returns (next: State)
    requires ValidState(st) && CloseGroup(st).Success?
    requires st.operators != [] && st.operators[|st.operators| - 1] != '('
    ensures ValidState(next) && next.operators == st.operators[..|st.operators| - 1]
    ensures CloseGroup(next) == CloseGroup(st)
  {
    var n := |st.operators|;
    next := st.(expressions := Applied(st.expressions, st.operators[n - 1]).value, operators := st.operators[..n - 1]);
  }

  /** `)` pops operators up to and including the LAST `(` on the stack and
      keeps everything below it; when there is no `(` it empties the stack,
      without an error. */
  lemma {:induction false} CloseGroupStopsAtLastOpen(st: State)
    requires ValidState(st) && CloseGroup(st).Success?
    ensures CloseGroup(st).value.operators <= st.operators
    ensures NoOpen(st.operators) ==> CloseGroup(st).value.operators == []
    ensures !NoOpen(st.operators) ==>
      var k := |CloseGroup(st).value.operators|;
      k < |st.operators| && st.operators[k] == '(' && NoOpen(st.operators[k + 1..])
    decreases |st.operators|
  {
    if st.operators != [] {
      var n := |st.operators|;
      var op, rest := st.operators[n - 1], st.operators[..n - 1];
      assert st.operators == rest + [op];
      if op != '(' {
        var next := CloseGroupPop(st);
        CloseGroupStopsAtLastOpen(next);
        PushNonOpen(rest, op, |CloseGroup(st).value.operators|);
      } else {
        assert CloseGroup(st).value.operators == rest;
        assert st.operators[n..] == [];
      }
    }
  }

  /** Pushing an operator other than `(` keeps the last `(` where it was. */
  lemma PushNonOpen(ops: seq<char>, op: char, k: int)
    requires op != '('
    requires !NoOpen(ops) ==> 0 <= k < |ops| && ops[k] == '(' && NoOpen(ops[k + 1..])
    ensures NoOpen(ops + [op]) <==> NoOpen(ops)
    ensures !NoOpen(ops + [op]) ==>
      k < |ops + [op]| && (ops + [op])[k] == '(' && NoOpen((ops + [op])[k + 1..])
  {
    var pushed := ops + [op];
    if !NoOpen(ops) {
      var tail := pushed[k + 1..];
      assert tail == ops[k + 1..] + [op];
      forall i | 0 <= i < |tail|
        ensures tail[i] != '('
      {
        if i < |tail| - 1 {
          assert tail[i] == ops[k + 1..][i];
        }
      }
    }
    if NoOpen(ops) {
      forall i | 0 <= i < |pushed|
        ensures pushed[i] != '('
      {
        if i < |ops| {
          assert pushed[i] == ops[i];
        }
      }
    } else {
      var j :| 0 <= j < |ops| && ops[j] == '(';
      assert pushed[j] == '(';
    }
  }

  // ---------------------------------------------------------------------
  // Patterns

  /** Scanning one more character `c` after `p` is one more `Step`. */
  lemma ScanSnoc(st: State, p: string, c: char)
    requires ValidState(st)
    ensures Scan(st, p).Failure? ==> Scan(st, p + [c]) == Scan(st, p)
    ensures Scan(st, p).Success? ==> Scan(st, p + [c]) == Step(Scan(st, p).value, c)
  {
    assert (p + [c])[..|p|] == p;
  }

  /** A single literal: its fragment on the stack, no operator pending. */
  lemma ScanLiteral(c: char)
    requires IsLiteral(c)
    ensures Scan(Initial(), [c]) == Success(State([LiteralGraph(c)], [], {c} - {EPSILON}, Operand))
  {
    assert [c] == [] + [c];
    ScanSnoc(Initial(), [], c);
    StepLiteral(Initial(), c);
    assert [] + [LiteralGraph(c)] == [LiteralGraph(c)] && Initial().operators + [] == [];
    assert Initial().alphabet + (if c != EPSILON then {c} else {}) == {c} - {EPSILON};
  }

  /** A single literal compiles to its two-vertex fragment. */
  lemma CompileLiteral(c: char)
    requires IsLiteral(c)
    ensures Compile([c]) == Success(LiteralGraph(c))
  {
    ScanLiteral(c);
  }

  lemma ScanA()
    ensures Scan(Initial(), "a") == Success(State([LiteralGraph('a')], [], {'a'}, Operand))
  {
    ScanLiteral('a');
    assert {'a'} - {EPSILON} == {'a'};
  }

  lemma ScanAStar()
    ensures Scan(Initial(), "a*") == Success(State([StarGraph(LiteralGraph('a'))], [], {'a'}, Operand))
  {
    var a := LiteralGraph('a');
    StarIsFragment(a);
    ScanA();
    assert "a*" == "a" + ['*'];
    ScanSnoc(Initial(), "a", '*');
    StepUnary(State([a], [], {'a'}, Operand), '*');
    assert [a][..0] + [StarGraph(a)] == [StarGraph(a)];
  }

  lemma ScanStarThenLiteral()
    ensures Scan(Initial(), "a*b") == Success(State([StarGraph(LiteralGraph('a')), LiteralGraph('b')], [CONCAT_OPERATOR], {'a', 'b'}, Operand))
  {
    var a, b := LiteralGraph('a'), LiteralGraph('b');
    StarIsFragment(a);
    var s2 := State([StarGraph(a)], [], {'a'}, Operand);
    ScanAStar();
    assert "a*b" == "a*" + ['b'];
    ScanSnoc(Initial(), "a*", 'b');
    StepLiteral(s2, 'b');
    assert [StarGraph(a)] + [b] == [StarGraph(a), b] && s2.operators + [CONCAT_OPERATOR] == [CONCAT_OPERATOR];
    assert s2.alphabet + {'b'} == {'a', 'b'};
  }

  /** `a*b`: the star is applied at once and does not reset the last token,
      so a concatenation still joins `a*` and `b`. */
  lemma CompileStarThenLiteral()
    ensures Compile("a*b") == Success(ConcatGraph(StarGraph(LiteralGraph('a')), LiteralGraph('b')))
  {
    var a, b := LiteralGraph('a'), LiteralGraph('b');
    StarIsFragment(a);
    var s3 := State([StarGraph(a), b], [CONCAT_OPERATOR], {'a', 'b'}, Operand);
    ScanStarThenLiteral();
    assert Drain(s3) == Success(s3.(expressions := [ConcatGraph(StarGraph(a), b)], operators := [])) by {
      assert [StarGraph(a), b][..0] + [ConcatGraph(StarGraph(a), b)] == [ConcatGraph(StarGraph(a), b)];
    }
  }

  /** `ab`: a literal after a literal pushes the implicit concatenation. */
  lemma ScanAB()
    ensures Scan(Initial(), "ab") == Success(State([LiteralGraph('a'), LiteralGraph('b')], [CONCAT_OPERATOR], {'a', 'b'}, Operand))
  {
    var a, b := LiteralGraph('a'), LiteralGraph('b');
    var s1 := State([a], [], {'a'}, Operand);
    ScanA();
    assert "ab" == "a" + ['b'];
    ScanSnoc(Initial(), "a", 'b');
    StepLiteral(s1, 'b');
    assert [a] + [b] == [a, b] && s1.operators + [CONCAT_OPERATOR] == [CONCAT_OPERATOR];
    assert s1.alphabet + {'b'} == {'a', 'b'};
  }

  lemma ScanABAlternative()
    ensures Scan(Initial(), "ab|") == Success(State([LiteralGraph('a'), LiteralGraph('b')], [CONCAT_OPERATOR, '|'], {'a', 'b'}, Operator))
  {
    var s2 := State([LiteralGraph('a'), LiteralGraph('b')], [CONCAT_OPERATOR], {'a', 'b'}, Operand);
    ScanAB();
    assert "ab|" == "ab" + ['|'];
    ScanSnoc(Initial(), "ab", '|');
    StepBinary(s2, '|');
    assert s2.operators + ['|'] == [CONCAT_OPERATOR, '|'];
  }

  lemma ScanWithoutPrecedence()
    ensures Scan(Initial(), "ab|c") == Success(State([LiteralGraph('a'), LiteralGraph('b'), LiteralGraph('c')], [CONCAT_OPERATOR, '|'], {'a', 'b', 'c'}, Operand))
  {
    var a, b, c := LiteralGraph('a'), LiteralGraph('b'), LiteralGraph('c');
    var s3 := State([a, b], [CONCAT_OPERATOR, '|'], {'a', 'b'}, Operator);
    ScanABAlternative();
    assert "ab|c" == "ab|" + ['c'];
    ScanSnoc(Initial(), "ab|", 'c');
    StepLiteral(s3, 'c');
    assert [a, b] + [c] == [a, b, c] && s3.operators + [] == s3.operators;
    assert s3.alphabet + {'c'} == {'a', 'b', 'c'};
  }

  /** Draining `.` then `|` over `a`, `b`, `c`: `|` is on top, so it is
      applied first, to `b` and `c`. */
  lemma DrainWithoutPrecedence()
    ensures var a, b, c := LiteralGraph('a'), LiteralGraph('b'), LiteralGraph('c');
      Drain(State([a, b, c], [CONCAT_OPERATOR, '|'], {'a', 'b', 'c'}, Operand))
      == Success(State([ConcatGraph(a, OrGraph(b, c))], [], {'a', 'b', 'c'}, Operand))
  {
    var a, b, c := LiteralGraph('a'), LiteralGraph('b'), LiteralGraph('c');
    OrIsFragment(b, c);
    var s4 := State([a, b, c], [CONCAT_OPERATOR, '|'], {'a', 'b', 'c'}, Operand);
    var s5 := State([a, OrGraph(b, c)], [CONCAT_OPERATOR], {'a', 'b', 'c'}, Operand);
    assert Drain(s4) == Drain(s5) by {
      assert [a, b, c][..1] + [OrGraph(b, c)] == [a, OrGraph(b, c)];
    }
    assert Drain(s5) == Success(s5.(expressions := [ConcatGraph(a, OrGraph(b, c))], operators := [])) by {
      assert [a, OrGraph(b, c)][..0] + [ConcatGraph(a, OrGraph(b, c))] == [ConcatGraph(a, OrGraph(b, c))];
    }
  }

  /** `ab|c`: the binary operators are applied last-pushed first, so the
      alternative binds tighter than the concatenation and the pattern
      compiles as `a(b|c)`. */
  lemma CompileWithoutPrecedence()
    ensures Compile("ab|c") == Success(ConcatGraph(LiteralGraph('a'), OrGraph(LiteralGraph('b'), LiteralGraph('c'))))
  {
    ScanWithoutPrecedence();
    DrainWithoutPrecedence();
  }

  /** `(`: the group is opened on the operator stack. */
  lemma ScanOpen()
    ensures Scan(Initial(), "(") == Success(State([], ['('], {}, Operator))
  {
    assert "("[..0] == [];
    StepOpen(Initial());
    assert Initial().operators + [] + ['('] == ['('];
  }

  /** A leftover `(` is popped at the end and applied as a no-op, so `(a`
      compiles to the fragment of `a`. */
  lemma CompileUnclosedGroup()
    ensures Compile("(a") == Success(LiteralGraph('a'))
  {
    var s2 := State([LiteralGraph('a')], ['('], {'a'}, Operand);
    ScanUnclosedGroup();
    assert Drain(s2) == Success(s2.(operators := []));
  }

  lemma ScanUnclosedGroup()
    ensures Scan(Initial(), "(a") == Success(State([LiteralGraph('a')], ['('], {'a'}, Operand))
  {
    var a := LiteralGraph('a');
    var s1 := State([], ['('], {}, Operator);
    ScanOpen();
    assert "(a" == "(" + ['a'];
    ScanSnoc(Initial(), "(", 'a');
    StepLiteral(s1, 'a');
    assert [] + [a] == [a] && s1.operators + [] == s1.operators && s1.alphabet + {'a'} == {'a'};
  }

  /** An unmatched `)` empties the (already empty) operator stack and raises
      no error, so `a)` compiles to the fragment of `a`. */
  lemma CompileUnmatchedClose()
    ensures Compile("a)") == Success(LiteralGraph('a'))
  {
    var s1 := State([LiteralGraph('a')], [], {'a'}, Operand);
    ScanA();
    assert "a)" == "a" + [')'];
    ScanSnoc(Initial(), "a", ')');
    StepClose(s1);
    assert Scan(Initial(), "a)") == Success(s1);
  }

  /** A pattern with no literal leaves no fragment, and an operator with no
      operand finds none on the stack: these fail (in the source: `top()` or
      `pop()` on an empty stack). */
  lemma CompileEmptyPattern()
    ensures Compile("").Failure?
  {
  }

  lemma CompileLoneOpen()
    ensures Compile("(").Failure?
  {
    var st := State([], ['('], {}, Operator);
    ScanOpen();
    assert Drain(st) == Success(st.(operators := []));
  }

  lemma CompileLoneClose()
    ensures Compile(")").Failure?
  {
    assert ")"[..0] == [];
    StepClose(Initial());
    assert Scan(Initial(), ")") == Step(Initial(), ')');
  }

  lemma CompileLoneStar()
    ensures Compile("*").Failure? && Compile("+").Failure?
  {
    assert "*"[..0] == [] && "+"[..0] == [];
    StepUnary(Initial(), '*');
    StepUnary(Initial(), '+');
    assert Scan(Initial(), "*") == Step(Initial(), '*');
    assert Scan(Initial(), "+") == Step(Initial(), '+');
  }

  lemma CompileLoneAlternative()
    ensures Compile("|").Failure?
  {
    assert "|"[..0] == [];
    StepBinary(Initial(), '|');
    assert Initial().operators + ['|'] == ['|'];
    assert Scan(Initial(), "|") == Success(State([], ['|'], {}, Operator));
  }

  lemma ScanAAlternative()
    ensures Scan(Initial(), "a|") == Success(State([LiteralGraph('a')], ['|'], {'a'}, Operator))
  {
    var s1 := State([LiteralGraph('a')], [], {'a'}, Operand);
    ScanA();
    assert "a|" == "a" + ['|'];
    ScanSnoc(Initial(), "a", '|');
    StepBinary(s1, '|');
    assert s1.operators + ['|'] == ['|'];
  }

  lemma CompileMissingRightOperand()
    ensures Compile("a|").Failure?
  {
    ScanAAlternative();
  }

  /** Closing a group over an empty fragment stack either fails or leaves
      the stack empty. */
  lemma {:induction false} CloseGroupKeepsEmpty(st: State)
    requires ValidState(st) && st.expressions == []
    ensures CloseGroup(st).Success? ==> CloseGroup(st).value.expressions == []
    decreases |st.operators|
  {
    if st.operators != [] {
      var op, rest := st.operators[|st.operators| - 1], st.operators[..|st.operators| - 1];
      if op != '(' && Applied(st.expressions, op).Success? {
        CloseGroupKeepsEmpty(st.(operators := rest));
      }
    }
  }

  /** Draining over an empty fragment stack either fails or leaves it
      empty. */
  lemma {:induction false} DrainKeepsEmpty(st: State)
    requires ValidState(st) && st.expressions == []
    ensures Drain(st).Success? ==> Drain(st).value.expressions == []
    decreases |st.operators|
  {
    if st.operators != [] {
      var op, rest := st.operators[|st.operators| - 1], st.operators[..|st.operators| - 1];
      if Applied(st.expressions, op).Success? {
        DrainKeepsEmpty(st.(operators := rest));
      }
    }
  }

  /** Only a literal pushes a fragment: scanning a pattern without one
      leaves the fragment stack empty. */
  lemma {:induction false} ScanWithoutLiteral(p: string)
    requires forall i :: 0 <= i < |p| ==> !IsLiteral(p[i])
    ensures Scan(Initial(), p).Success? ==> Scan(Initial(), p).value.expressions == []
    decreases |p|
  {
    if p != [] {
      var q, c := p[..|p| - 1], p[|p| - 1];
      assert forall i :: 0 <= i < |q| ==> q[i] == p[i];
      ScanWithoutLiteral(q);
      if Scan(Initial(), q).Success? && c == ')' {
        CloseGroupKeepsEmpty(Scan(Initial(), q).value);
      }
    }
  }

  /** A pattern without a literal character never compiles: no fragment is
      ever pushed, so `build` finds none to return. */
  lemma CompileNeedsLiteral(p: string)
    ensures (forall i :: 0 <= i < |p| ==> !IsLiteral(p[i])) ==> Compile(p).Failure?
  {
    if forall i :: 0 <= i < |p| ==> !IsLiteral(p[i]) {
      ScanWithoutLiteral(p);
      if Scan(Initial(), p).Success? {
        DrainKeepsEmpty(Scan(Initial(), p).value);
      }
    }
  }

  /** `a*` compiles to the star of the fragment of `a`. */
  lemma CompileStar()
    ensures Compile("a*") == Success(StarGraph(LiteralGraph('a')))
  {
    var a := LiteralGraph('a');
    StarIsFragment(a);
    ScanAStar();
    var st := State([StarGraph(a)], [], {'a'}, Operand);
    assert Drain(st) == Success(st);
  }

  /** `a+` compiles to the plus of the fragment of `a`. */
  lemma CompilePlus()
    ensures Compile("a+") == Success(PlusGraph(LiteralGraph('a')))
  {
    var a := LiteralGraph('a');
    PlusIsFragment(a);
    ScanA();
    assert "a+" == "a" + ['+'];
    ScanSnoc(Initial(), "a", '+');
    StepUnary(State([a], [], {'a'}, Operand), '+');
    assert [a][..0] + [PlusGraph(a)] == [PlusGraph(a)];
    var st := State([PlusGraph(a)], [], {'a'}, Operand);
    assert Scan(Initial(), "a+") == Success(st);
    assert Drain(st) == Success(st);
  }

  /** `ab` compiles to the concatenation of the fragments of `a` and `b`. */
  lemma CompileConcat()
    ensures Compile("ab") == Success(ConcatGraph(LiteralGraph('a'), LiteralGraph('b')))
  {
    var a, b := LiteralGraph('a'), LiteralGraph('b');
    ConcatIsFragment(a, b);
    var s2 := State([a, b], [CONCAT_OPERATOR], {'a', 'b'}, Operand);
    ScanAB();
    assert Drain(s2) == Success(s2.(expressions := [ConcatGraph(a, b)], operators := [])) by {
      assert [a, b][..0] + [ConcatGraph(a, b)] == [ConcatGraph(a, b)];
    }
  }

  /** `a|b` compiles to the alternative of the fragments of `a` and `b`:
      after `|` the last token is an operator, so no concatenation is
      pushed before `b`. */
  lemma CompileAlternative()
    ensures Compile("a|b") == Success(OrGraph(LiteralGraph('a'), LiteralGraph('b')))
  {
    var a, b := LiteralGraph('a'), LiteralGraph('b');
    OrIsFragment(a, b);
    var s2 := State([a], ['|'], {'a'}, Operator);
    ScanAAlternative();
    var s3 := State([a, b], ['|'], {'a', 'b'}, Operand);
    assert Scan(Initial(), "a|b") == Success(s3) by {
      assert "a|b" == "a|" + ['b'];
      ScanSnoc(Initial(), "a|", 'b');
      StepLiteral(s2, 'b');
      assert [a] + [b] == [a, b] && s2.operators + [] == s2.operators && s2.alphabet + {'b'} == {'a', 'b'};
    }
    assert Drain(s3) == Success(s3.(expressions := [OrGraph(a, b)], operators := [])) by {
      assert [a, b][..0] + [OrGraph(a, b)] == [OrGraph(a, b)];
    }
  }

  // ---------------------------------------------------------------------
  // Operator precedence, as the pattern syntax intends it

  /** How tightly a binary operator binds: concatenation binds tighter than
      alternation (`*` and `+` are applied at once and bind tightest). */
  function Precedence(op: char): nat
  {
    if op == CONCAT_OPERATOR then 2 else if op == '|' then 1 else 0
  }

  /** Before the binary operator `op` is pushed, the operators on top of the
      stack that bind at least as tightly are popped and applied; a `(`
      stops the popping. */
  ghost function Reduce(st: State, op: char): (r: Result<State, BuildError>)
    requires ValidState(st)
    ensures r.Success? ==> ValidState(r.value) && r.value.alphabet == st.alphabet && r.value.last == st.last
    decreases |st.operators|
  {
    if st.operators == [] then Success(st)
    else
      var top, rest := st.operators[|st.operators| - 1], st.operators[..|st.operators| - 1];
      if top == '(' || Precedence(top) < Precedence(op) then Success(st)
      else match Applied(st.expressions, top)
        case Failure(e) => Failure(e)
        case Success(exprs) => Reduce(st.(expressions := exprs, operators := rest), op)
  }

  /** Pushes the binary operator `op` after reducing the stack for it. */
  ghost function PushBinary(st: State, op: char): (r: Result<State, BuildError>)
    requires ValidState(st)
    ensures r.Success? ==> ValidState(r.value) && r.value.alphabet == st.alphabet
  {
    match Reduce(st, op)
      case Failure(e) => Failure(e)
      case Success(s) => Success(s.(operators := s.operators + [op]))
  }

  /** One character, with the implicit and explicit binary operators pushed
      through `PushBinary`; everything else is as in `Step`. */
  ghost function IntendedStep(st: State, c: char): (r: Result<State, BuildError>)
    requires ValidState(st)
    ensures r.Success? ==> ValidState(r.value)
  {
    var joined := if st.last == Operand then PushBinary(st, CONCAT_OPERATOR) else Success(st);
    if c == '(' then
      match joined
        case Failure(e) => Failure(e)
        case Success(s) => Success(s.(operators := s.operators + [c], last := Operator))
    else if c == CONCAT_OPERATOR || c == '|' then
      match PushBinary(st, c)
        case Failure(e) => Failure(e)
        case Success(s) => Success(s.(last := Operator))
    else if !IsLiteral(c) then
      Step(st, c)
    else
      match joined
        case Failure(e) => Failure(e)
        case Success(s) =>
          Success(State(s.expressions + [LiteralGraph(c)], s.operators,
                        s.alphabet + (if c != EPSILON then {c} else {}), Operand))
  }

  ghost function IntendedScan(st: State, p: string): (r: Result<State, BuildError>)
    requires ValidState(st)
    ensures r.Success? ==> ValidState(r.value)
    decreases |p|
  {
    if p == [] then Success(st)
    else
      match IntendedScan(st, p[..|p| - 1])
        case Failure(e) => Failure(e)
        case Success(s) => IntendedStep(s, p[|p| - 1])
  }

  /** What `build` would return with precedence applied. */
  ghost function IntendedCompile(p: string): (r: Result<GraphValue, BuildError>)
    ensures r.Success? ==> IsFragment(r.value)
  {
    match IntendedScan(Initial(), p)
      case Failure(e) => Failure(e)
      case Success(s) =>
        match Drain(s)
          case Failure(e) => Failure(e)
          case Success(d) =>
            if d.expressions == [] then Failure(MissingOperand)
            else Success(d.expressions[|d.expressions| - 1])
  }

  /** Scanning one more character `c` after `p` is one more `IntendedStep`. */
  lemma IntendedScanSnoc(st: State, p: string, c: char)
    requires ValidState(st)
    ensures IntendedScan(st, p).Failure? ==> IntendedScan(st, p + [c]) == IntendedScan(st, p)
    ensures IntendedScan(st, p).Success? ==> IntendedScan(st, p + [c]) == IntendedStep(IntendedScan(st, p).value, c)
  {
    assert (p + [c])[..|p|] == p;
  }

  lemma IntendedStepLiteral(st: State, c: char)
    requires ValidState(st) && IsLiteral(c) && c != EPSILON
    ensures st.last == Operator ==>
      IntendedStep(st, c) == Success(State(st.expressions + [LiteralGraph(c)], st.operators, st.alphabet + {c}, Operand))
    ensures st.last == Operand && Reduce(st, CONCAT_OPERATOR).Success? ==>
      var s := Reduce(st, CONCAT_OPERATOR).value;
      IntendedStep(st, c) == Success(State(s.expressions + [LiteralGraph(c)], s.operators + [CONCAT_OPERATOR], s.alphabet + {c}, Operand))
  {
  }

  lemma IntendedStepBinary(st: State, c: char)
    requires ValidState(st) && (c == CONCAT_OPERATOR || c == '|') && Reduce(st, c).Success?
    ensures var s := Reduce(st, c).value;
      IntendedStep(st, c) == Success(s.(operators := s.operators + [c], last := Operator))
  {
  }

  lemma IntendedScanA()
    ensures IntendedScan(Initial(), "a") == Success(State([LiteralGraph('a')], [], {'a'}, Operand))
  {
    assert "a"[..0] == [];
    IntendedStepLiteral(Initial(), 'a');
    assert Initial().alphabet + {'a'} == {'a'} && [] + [LiteralGraph('a')] == [LiteralGraph('a')];
  }

  lemma IntendedScanAB()
    ensures IntendedScan(Initial(), "ab") == Success(State([LiteralGraph('a'), LiteralGraph('b')], [CONCAT_OPERATOR], {'a', 'b'}, Operand))
  {
    var a, b := LiteralGraph('a'), LiteralGraph('b');
    var s1 := State([a], [], {'a'}, Operand);
    IntendedScanA();
    assert "ab" == "a" + ['b'];
    IntendedScanSnoc(Initial(), "a", 'b');
    assert Reduce(s1, CONCAT_OPERATOR) == Success(s1);
    IntendedStepLiteral(s1, 'b');
    assert s1.alphabet + {'b'} == {'a', 'b'} && [a] + [b] == [a, b] && s1.operators + [CONCAT_OPERATOR] == [CONCAT_OPERATOR];
  }

  /** Before `|` is pushed, the pending concatenation binds tighter and is
      applied. */
  lemma ReduceBeforeAlternative()
    ensures Reduce(State([LiteralGraph('a'), LiteralGraph('b')], [CONCAT_OPERATOR], {'a', 'b'}, Operand), '|') ==
      Success(State([ConcatGraph(LiteralGraph('a'), LiteralGraph('b'))], [], {'a', 'b'}, Operand))
  {
    var a, b := LiteralGraph('a'), LiteralGraph('b');
    ConcatIsFragment(a, b);
    var ab := ConcatGraph(a, b);
    var s2 := State([a, b], [CONCAT_OPERATOR], {'a', 'b'}, Operand);
    var reduced := s2.(expressions := [ab], operators := []);
    assert Reduce(s2, '|') == Reduce(reduced, '|') by {
      assert [a, b][..0] + [ab] == [ab];
    }
  }

  lemma IntendedScanBeforeAlternative()
    ensures IntendedScan(Initial(), "ab|") ==
      Success(State([ConcatGraph(LiteralGraph('a'), LiteralGraph('b'))], ['|'], {'a', 'b'}, Operator))
  {
    var s2 := State([LiteralGraph('a'), LiteralGraph('b')], [CONCAT_OPERATOR], {'a', 'b'}, Operand);
    IntendedScanAB();
    assert "ab|" == "ab" + ['|'];
    IntendedScanSnoc(Initial(), "ab", '|');
    ReduceBeforeAlternative();
    IntendedStepBinary(s2, '|');
    assert [] + ['|'] == ['|'];
  }

  lemma IntendedScanWithPrecedence()
    ensures IntendedScan(Initial(), "ab|c") ==
      Success(State([ConcatGraph(LiteralGraph('a'), LiteralGraph('b')), LiteralGraph('c')], ['|'], {'a', 'b', 'c'}, Operand))
  {
    var ab, c := ConcatGraph(LiteralGraph('a'), LiteralGraph('b')), LiteralGraph('c');
    var s3 := State([ab], ['|'], {'a', 'b'}, Operator);
    IntendedScanBeforeAlternative();
    assert "ab|c" == "ab|" + ['c'];
    IntendedScanSnoc(Initial(), "ab|", 'c');
    IntendedStepLiteral(s3, 'c');
    assert s3.alphabet + {'c'} == {'a', 'b', 'c'} && [ab] + [c] == [ab, c];
  }

  /** With precedence, `ab|c` is the alternative of `ab` and `c`. */
  lemma IntendedCompileWithPrecedence()
    ensures IntendedCompile("ab|c") == Success(OrGraph(ConcatGraph(LiteralGraph('a'), LiteralGraph('b')), LiteralGraph('c')))
  {
    var a, b, c := LiteralGraph('a'), LiteralGraph('b'), LiteralGraph('c');
    ConcatIsFragment(a, b);
    var ab := ConcatGraph(a, b);
    OrIsFragment(ab, c);
    IntendedScanWithPrecedence();
    var s := State([ab, c], ['|'], {'a', 'b', 'c'}, Operand);
    assert Drain(s) == Success(s.(expressions := [OrGraph(ab, c)], operators := [])) by {
      assert [ab, c][..0] + [OrGraph(ab, c)] == [OrGraph(ab, c)];
    }
  }

  /** The two compilations of `ab|c` are different graphs: only the
      alternative leaves its start by EPSILON to vertex 3. */
  lemma PrecedenceChangesTheGraph()
    ensures var a, b, c := LiteralGraph('a'), LiteralGraph('b'), LiteralGraph('c');
      ConcatGraph(a, OrGraph(b, c)) != OrGraph(ConcatGraph(a, b), c)
  {
    var a, b, c := LiteralGraph('a'), LiteralGraph('b'), LiteralGraph('c');
    OrIsFragment(b, c);
    ConcatIsFragment(a, b);
    var asWritten := ConcatGraph(a, OrGraph(b, c));
    var intended := OrGraph(ConcatGraph(a, b), c);
    assert Edge(1, EPSILON, 3) in intended.edges;
    if Edge(1, EPSILON, 3) in ShiftEdges(a.edges, 1) {
      ShiftedEdgeWithin(a, 1, Edge(1, EPSILON, 3));
    }
    if Edge(1, EPSILON, 3) in ShiftEdges(OrGraph(b, c).edges, a.nextId) {
      ShiftedEdgeWithin(OrGraph(b, c), a.nextId, Edge(1, EPSILON, 3));
    }
    assert Edge(1, EPSILON, 3) !in asWritten.edges;
  }

  class Automata {
    var alphabet: set<char>
    var expressions: seq<GraphValue>
    var operators: seq<char>
    var regExpression: string
    var graph: Option<GraphValue>

    /** An automaton for `expression`, with empty stacks and alphabet. */
    constructor (expression: string)
      ensures regExpression == expression
      ensures alphabet == {} && expressions == [] && operators == [] && graph == None
    {
      regExpression := expression;
      alphabet, expressions, operators, graph := {}, [], [], None;
    }

    /** The fragment `build` pushes for the literal `c`. */
    method Literal(c: char) returns (r: GraphValue)
      ensures r == LiteralGraph(c)
    {
      var g := new Graph();
      var start := g.CreateVertex();
      var end := g.CreateVertex();
      g.SetStart(start);
      g.AddFinal({end});
      g.AddEdge(start, c, end);
      r := g.Value();
    }

    /** Applies `*` to fragment `f`. */
    method Star(f: GraphValue) returns (r: GraphValue)
      requires IsFragment(f)
      ensures r == StarGraph(f)
    {
      var g := new Graph();
      var start := g.CreateVertex();
      g.SetStart(start);
      var next := g.CreateVertex();
      g.AddEdge(start, EPSILON, next);
      assert g.edges == {Edge(start, EPSILON, next)};
      ghost var off := g.nextId - 1;
      assert start == 1 && next == 2 && off == 2;
      var newStart, newEnd := g.ConnectGraphToVertex(f, next);
      assert newEnd - off in f.finals;
      ghost var copied := {Edge(start, EPSILON, next)} + ShiftEdges(f.edges, off) + {Edge(next, EPSILON, newStart)};
      assert g.edges == copied;
      g.AddEdge(newEnd, EPSILON, newStart);
      assert g.edges == copied + {Edge(newEnd, EPSILON, newStart)};
      var end := g.CreateVertex();
      assert end == f.nextId + off;
      g.AddFinal({end});
      assert g.finals == {end};
      g.AddEdge(start, EPSILON, end);
      assert g.edges == copied + {Edge(newEnd, EPSILON, newStart)} + {Edge(start, EPSILON, end)};
      g.AddEdge(newEnd, EPSILON, end);
      r := g.Value();
      StarSteps(f, start, next, off, newStart, newEnd, end, r);
    }

    /** Applies `+` to fragment `f`: as `Star`, without the bypass. */
    method Plus(f: GraphValue) returns (r: GraphValue)
      requires IsFragment(f)
      ensures r == PlusGraph(f)
    {
      var g := new Graph();
      var start := g.CreateVertex();
      g.SetStart(start);
      var next := g.CreateVertex();
      g.AddEdge(start, EPSILON, next);
      assert g.edges == {Edge(start, EPSILON, next)};
      ghost var off := g.nextId - 1;
      assert start == 1 && next == 2 && off == 2;
      var newStart, newEnd := g.ConnectGraphToVertex(f, next);
      assert newEnd - off in f.finals;
      ghost var copied := {Edge(start, EPSILON, next)} + ShiftEdges(f.edges, off) + {Edge(next, EPSILON, newStart)};
      assert g.edges == copied;
      g.AddEdge(newEnd, EPSILON, newStart);
      assert g.edges == copied + {Edge(newEnd, EPSILON, newStart)};
      var end := g.CreateVertex();
      assert end == f.nextId + off;
      g.AddFinal({end});
      assert g.finals == {end};
      g.AddEdge(newEnd, EPSILON, end);
      r := g.Value();
      PlusSteps(f, start, next, off, newStart, newEnd, end, r);
    }

    /** Concatenates fragments `left` and `right`. */
    method Concat(left: GraphValue, right: GraphValue) returns (r: GraphValue)
      requires IsFragment(left) && IsFragment(right)
      ensures r == ConcatGraph(left, right)
    {
      var g := new Graph();
      var start := g.CreateVertex();
      g.SetStart(start);
      ghost var offLeft := g.nextId - 1;
      assert start == 1 && offLeft == 1;
      var newLeftStart, newLeftEnd := g.ConnectGraphToVertex(left, start);
      assert newLeftEnd - offLeft in left.finals;
      ghost var copiedLeft := ShiftEdges(left.edges, offLeft) + {Edge(start, EPSILON, newLeftStart)};
      assert g.edges == copiedLeft;
      ghost var offRight := g.nextId - 1;
      assert offRight == left.nextId;
      var newRightStart, newRightEnd := g.ConnectGraphToVertex(right, newLeftEnd);
      assert newRightEnd - offRight in right.finals;
      assert g.edges == copiedLeft + ShiftEdges(right.edges, offRight) + {Edge(newLeftEnd, EPSILON, newRightStart)};
      g.AddFinal({newRightEnd});
      assert g.finals == {newRightEnd};
      r := g.Value();
      ConcatSteps(left, right, start, offLeft, newLeftStart, newLeftEnd, offRight, newRightStart, newRightEnd, r);
    }

    /** Joins fragments `left` and `right` as alternatives. */
    method OrOperator(left: GraphValue, right: GraphValue) returns (r: GraphValue)
      requires IsFragment(left) && IsFragment(right)
      ensures r == OrGraph(left, right)
    {
      var g := new Graph();
      var start := g.CreateVertex();
      g.SetStart(start);
      var nextLeft := g.CreateVertex();
      var nextRight := g.CreateVertex();
      g.AddEdge(start, EPSILON, nextLeft);
      g.AddEdge(start, EPSILON, nextRight);
      ghost var entries := {Edge(start, EPSILON, nextLeft)} + {Edge(start, EPSILON, nextRight)};
      assert g.edges == entries;
      ghost var offLeft := g.nextId - 1;
      assert start == 1 && nextLeft == 2 && nextRight == 3 && offLeft == 3;
      var newLeftStart, newLeftEnd := g.ConnectGraphToVertex(left, nextLeft);
      assert newLeftEnd - offLeft in left.finals;
      ghost var copiedLeft := entries + ShiftEdges(left.edges, offLeft) + {Edge(nextLeft, EPSILON, newLeftStart)};
      assert g.edges == copiedLeft;
      ghost var offRight := g.nextId - 1;
      assert offRight == left.nextId + 2;
      var newRightStart, newRightEnd := g.ConnectGraphToVertex(right, nextRight);
      assert newRightEnd - offRight in right.finals;
      ghost var copied := copiedLeft + ShiftEdges(right.edges, offRight) + {Edge(nextRight, EPSILON, newRightStart)};
      assert g.edges == copied;
      var end := g.CreateVertex();
      assert end == offRight + right.nextId;
      g.AddFinal({end});
      assert g.finals == {end};
      g.AddEdge(newLeftEnd, EPSILON, end);
      assert g.edges == copied + {Edge(newLeftEnd, EPSILON, end)};
      g.AddEdge(newRightEnd, EPSILON, end);
      r := g.Value();
      OrSteps(left, right, start, nextLeft, nextRight, offLeft, newLeftStart, newLeftEnd,
              offRight, newRightStart, newRightEnd, end, r);
    }

    /** The fragment stack holds fragments only. */
    ghost predicate Valid()
      reads this
    {
      AllFragments(expressions)
    }

    /** The compiler's state, given the kind of the last token. */
    function Current(last: TokenType): State
      reads this
    {
      State(expressions, operators, alphabet, last)
    }

    /** Pops the operands of `op` from the fragment stack, applies the
        construction and pushes the result; fails when the stack holds too
        few fragments. */
    method ApplyOperator(op: char) returns (ok: bool)
      requires Valid()
      modifies this
      ensures Valid()
      ensures ok <==> Arity(op) <= |old(expressions)|
      ensures ok ==> Applied(old(expressions), op) == Success(expressions)
      ensures !ok ==> Applied(old(expressions), op).Failure? && expressions == old(expressions)
      ensures operators == old(operators) && alphabet == old(alphabet)
      ensures regExpression == old(regExpression) && graph == old(graph)
    {
      var n := |expressions|;
      ok := true;
      if op == '*' {
        if n == 0 { return false; }
        var f := expressions[n - 1];
        expressions := expressions[..n - 1];
        var g := Star(f);
        expressions := expressions + [g];
      } else if op == '+' {
        if n == 0 { return false; }
        var f := expressions[n - 1];
        expressions := expressions[..n - 1];
        var g := Plus(f);
        expressions := expressions + [g];
      } else if op == CONCAT_OPERATOR {
        if n < 2 { return false; }
        var right := expressions[n - 1];
        var left := expressions[n - 2];
        expressions := expressions[..n - 2];
        var g := Concat(left, right);
        expressions := expressions + [g];
      } else if op == '|' {
        if n < 2 { return false; }
        var right := expressions[n - 1];
        var left := expressions[n - 2];
        expressions := expressions[..n - 2];
        var g := OrOperator(left, right);
        expressions := expressions + [g];
      }
      assert Applied(old(expressions), op).value == expressions;
    }

    /** One pass of the `switch` in `build`: handles character `c` given
        the kind of the last token, and returns the new kind. Fails when an
        operator finds too few fragments on the stack. */
    method Consume(c: char, last: TokenType) returns (ok: bool, next: TokenType)
      requires Valid()
      modifies this
      ensures Valid() && regExpression == old(regExpression) && graph == old(graph)
      ensures ok <==> Step(old(Current(last)), c).Success?
      ensures ok ==> Step(old(Current(last)), c) == Success(Current(next))
    {
      ghost var before := Current(last);
      assert before.operators + [] == before.operators;
      ok, next := true, last;
      if c == '(' {
        StepOpen(before);
        if last == Operand {
          operators := operators + [CONCAT_OPERATOR];
        }
        operators := operators + [c];
        next := Operator;
      } else if c == ')' {
        StepClose(before);
        while operators != []
          invariant Valid() && regExpression == old(regExpression) && graph == old(graph)
          invariant alphabet == before.alphabet
          invariant CloseGroup(before) == CloseGroup(Current(last))
          decreases |operators|
        {
          var op := operators[|operators| - 1];
          operators := operators[..|operators| - 1];
          if op == '(' {
            break;
          }
          ok := ApplyOperator(op);
          if !ok {
            return;
          }
        }
        assert CloseGroup(before) == Success(Current(last));
        next := Operand;
      } else if c == '*' || c == '+' {
        StepUnary(before, c);
        ok := ApplyOperator(c);
      } else if c == CONCAT_OPERATOR || c == '|' {
        StepBinary(before, c);
        operators := operators + [c];
        next := Operator;
      } else {
        StepLiteral(before, c);
        if last == Operand {
          operators := operators + [CONCAT_OPERATOR];
        }
        next := Operand;
        var g := Literal(c);
        expressions := expressions + [g];
        if c != EPSILON {
          alphabet := alphabet + {c};
        }
      }
    }

    /** The loop after the scan: pops each pending operator, top first, and
        applies it, until none is left or an operator misses an operand. */
    method DrainOperators(last: TokenType) returns (ok: bool)
      requires Valid()
      modifies this
      ensures ok <==> Drain(old(Current(last))).Success?
      ensures ok ==> Valid() && Drain(old(Current(last))) == Success(Current(last))
      ensures !ok ==> Drain(old(Current(last))) == Failure(MissingOperand)
      ensures regExpression == old(regExpression) && graph == old(graph)
    {
      ghost var start := Current(last);
      while operators != []
        invariant Valid() && regExpression == old(regExpression) && graph == old(graph)
        invariant alphabet == start.alphabet
        invariant Drain(start) == Drain(Current(last))
        decreases |operators|
      {
        ghost var cur := Current(last);
        var op := operators[|operators| - 1];
        operators := operators[..|operators| - 1];
        ok := ApplyOperator(op);
        if !ok {
          assert Drain(cur) == Failure(MissingOperand);
          return;
        }
      }
      ok := true;
    }

    /** Compiles the pattern: scans it once, then drains the operator stack,
        and returns (and records) the top fragment. The stacks and the
        alphabet are those the automaton already holds, so a second call
        continues from the state the first left. */
    method Build() returns (r: Result<GraphValue, BuildError>)
      requires Valid()
      modifies this
      ensures r == Compiled(old(Current(Operator)), old(regExpression))
      ensures regExpression == old(regExpression)
      ensures r.Success? ==> Valid() && operators == [] && graph == Some(r.value)
      ensures r.Success? ==> Finish(old(Current(Operator)), regExpression) == Success(Current(Finish(old(Current(Operator)), regExpression).value.last))
    {
      ghost var s0 := Current(Operator);
      var p := regExpression;
      var lastToken := Operator;
      var i := 0;
      assert p[..0] == [];
      while i < |p|
        invariant 0 <= i <= |p| && p == regExpression
        invariant Valid()
        invariant Scan(s0, p[..i]) == Success(Current(lastToken))
      {
        ScanExtend(s0, p, i);
        ghost var before := Current(lastToken);
        var ok;
        ok, lastToken := Consume(p[i], lastToken);
        if !ok {
          assert Step(before, p[i]).Failure?;
          assert Scan(s0, p[..i + 1]).Failure?;
          ScanFailureSticks(s0, p, i + 1);
          assert Compiled(s0, p) == Failure(MissingOperand);
          return Failure(MissingOperand);
        }
        i := i + 1;
      }
      assert p[..i] == p;
      assert Scan(s0, p) == Success(Current(lastToken));
      var drained := DrainOperators(lastToken);
      if !drained {
        assert Compiled(s0, p) == Failure(MissingOperand);
        return Failure(MissingOperand);
      }
      assert Finish(s0, p) == Success(Current(lastToken));
      if expressions == [] {
        assert Compiled(s0, p) == Failure(MissingOperand);
        return Failure(MissingOperand);
      }
      var top := expressions[|expressions| - 1];
      assert Compiled(s0, p) == Success(top);
      graph := Some(top);
      r := Success(top);
    }
  }
}

=== FILE: graph_test.dfy ===
/**
  The fixture and scenarios that fix the observable contract of the
  vertex-id graph: three vertices joined in a directed triangle
  `v1 --A--> v2 --B--> v3 --C--> v1`, with `v1` as start. Each scenario is a
  method whose postcondition is what the corresponding expectation checks.
 */
module GraphTest {
  import opened Wrappers
  import opened Semantics
  import opened VertexGraph

  /** The state `SetUp` leaves the fixture graph in. */
  function Triangle(): GraphValue
  {
    GraphValue({Edge(1, 'A', 2), Edge(2, 'B', 3), Edge(3, 'C', 1)}, 1, {}, 4)
  }

  class GraphTest {
    var graph: Graph
    var v1: int
    var v2: int
    var v3: int

    /** The fixture as `SetUp` leaves it. */
    ghost predicate Ready()
      reads this, graph
    {
      && graph.Valid()
      && graph.Value() == Triangle()
      && v1 == 1 && v2 == 2 && v3 == 3
    }

    constructor ()
      ensures Ready() && fresh(graph)
    {
      graph := new Graph();
      new;
      SetUp();
    }

    /** Three fresh vertices, `v1` as start and the three triangle edges. */
    method SetUp()
      modifies this
      ensures Ready() && fresh(graph)
    {
      graph := new Graph();
      v1 := graph.CreateVertex();
      v2 := graph.CreateVertex();
      v3 := graph.CreateVertex();
      graph.SetStart(v1);
      graph.AddEdge(v1, 'A', v2);
      graph.AddEdge(v2, 'B', v3);
      graph.AddEdge(v3, 'C', v1);
    }

    /** A default-constructed graph is empty. */
    method IsEmptyOnEmptyGraph() returns (empty: bool)
      ensures empty
    {
      var emptyGraph := new Graph();
      empty := emptyGraph.IsEmpty();
    }

    /** The fixture graph is not empty. */
    method IsEmptyOnNonEmptyGraph() returns (empty: bool)
      requires Ready()
      ensures !empty
    {
      empty := graph.IsEmpty();
    }

    /** The three created ids are exactly the vertices. */
    method GetVertexes() returns (size: int, has1: bool, has2: bool, has3: bool)
      requires Ready()
      ensures size == 3 && has1 && has2 && has3
    {
      var vertexes := graph.GetVertexes();
      size := |vertexes|;
      has1, has2, has3 := v1 in vertexes, v2 in vertexes, v3 in vertexes;
    }

    /** Each triangle edge reports its label; the reverse direction `v1 -> v3`
        of the edge `v3 -> v1` reports none. */
    method GetWeight() returns (ab: Option<char>, bc: Option<char>, ca: Option<char>, ac: Option<char>)
      requires Ready()
      ensures ab == Some('A') && bc == Some('B') && ca == Some('C') && ac == None
    {
      ab := graph.GetWeight(v1, v2);
      bc := graph.GetWeight(v2, v3);
      ca := graph.GetWeight(v3, v1);
      ac := graph.GetWeight(v1, v3);
    }

    /** After marking `v1` and `v3` final, exactly those two are final. */
    method IsFinal() returns (final1: bool, final2: bool, final3: bool)
      requires Ready()
      modifies graph
      ensures final1 && !final2 && final3
    {
      graph.AddFinal({v1});
      graph.AddFinal({v3});
      final1 := graph.IsFinal(v1);
      final2 := graph.IsFinal(v2);
      final3 := graph.IsFinal(v3);
    }

    /** The created ids are contained; id 4 was never handed out. */
    method ContainsVertex() returns (has1: bool, has2: bool, has3: bool, has4: bool)
      requires Ready()
      ensures has1 && has2 && has3 && !has4
    {
      has1 := graph.ContainsVertex(v1);
      has2 := graph.ContainsVertex(v2);
      has3 := graph.ContainsVertex(v3);
      has4 := graph.ContainsVertex(4);
    }
  }
}

=== FILE: nfa.dfy ===
/**
  The postfix builder: `build_nfa` reads a regular expression already in
  postfix form and evaluates it on a stack of fragments. Nodes are shared
  objects that carry their own outgoing transitions and a final flag; a
  fragment is a handle on two of them, its start (`get_node(1)`) and its
  final node (`get_final_node()`). The model keeps exactly that split: the
  node state (every transition, every final flag, the next fresh node) is
  threaded through the build, and the stack holds handles.
 */
module Nfa {
  import opened Wrappers
  import opened Semantics

  /** The two ways `build_nfa` goes wrong: an operator finds too few
      fragments on the stack (`top()` on an empty stack in the source), or
      the scan ends with an empty stack (`Invalid regular expression`). */
  datatype NfaError = MissingOperand | InvalidRegularExpression

  /** A fragment on `graph_stack`: its start node and its final node. */
  datatype Fragment = Fragment(start: int, final: int)

  /** The nodes built so far: their transitions, the nodes flagged final,
      and the next fresh node id. Together with the fragment stack, the
      state of `build_nfa` between two characters. */
  datatype Builder = Builder(stack: seq<Fragment>, edges: set<Edge>, finals: set<int>, nextId: int)

  /** The three operators of the postfix syntax; everything else, `+`
      included, is a literal. */
  predicate IsOperator(c: char)
    ensures IsOperator(c) <==> Pops(c) > 0
  {
    c == '*' || c == '|' || c == '.'
  }

  /** How many fragments a character pops. */
  function Pops(c: char): nat
  {
    if c == '*' then 1 else if c == '|' || c == '.' then 2 else 0
  }

  /** Every node a fragment, transition or flag mentions is one already
      handed out. */
  ghost predicate Allocated(b: Builder)
  {
    && b.nextId >= 1
    && (forall i :: 0 <= i < |b.stack| ==> 1 <= b.stack[i].start < b.nextId && 1 <= b.stack[i].final < b.nextId)
    && (forall e :: e in b.edges ==> 1 <= e.from < b.nextId && 1 <= e.to < b.nextId)
    && (forall v :: v in b.finals ==> 1 <= v < b.nextId)
  }

  /** The builder before the first character: no nodes, an empty stack. */
  function Empty(): Builder
  {
    Builder([], {}, {}, 1)
  }

  /** One character of the postfix expression. A literal `c` gets two fresh
      nodes `start --c--> final` with `final` flagged. `*` gets two fresh
      nodes and EPSILON transitions start -> old start, start -> final,
      old final -> old start and old final -> final. `|` gets two fresh
      nodes, EPSILON transitions from the start to both operand starts and
      from both operand finals to the final; the operand popped second is
      the left one. `.` joins the left operand's final to the right
      operand's start; the joined fragment runs from the left start to the
      right final, and the left final is no longer final. */
  function Step(b: Builder, c: char): (r: Result<Builder, NfaError>)
    ensures r.Failure? ==> r.error == MissingOperand
    ensures r.Success? ==> b.edges <= r.value.edges
    ensures r.Success? ==> r.value.nextId == b.nextId + (if c == '.' then 0 else 2)
  {
    var n := |b.stack|;
    var s, f := b.nextId, b.nextId + 1;
    if !IsOperator(c) then
      Success(Builder(b.stack + [Fragment(s, f)], b.edges + {Edge(s, c, f)}, b.finals + {f}, b.nextId + 2))
    else if n < Pops(c) then
      Failure(MissingOperand)
    else if c == '*' then
      var prev := b.stack[n - 1];
      Success(Builder(b.stack[..n - 1] + [Fragment(s, f)],
                      b.edges + {Edge(s, EPSILON, prev.start), Edge(s, EPSILON, f),
                                 Edge(prev.final, EPSILON, prev.start), Edge(prev.final, EPSILON, f)},
                      b.finals + {f}, b.nextId + 2))
    else
      var left, right := b.stack[n - 2], b.stack[n - 1];
      if c == '|' then
        Success(Builder(b.stack[..n - 2] + [Fragment(s, f)],
                        b.edges + {Edge(s, EPSILON, left.start), Edge(s, EPSILON, right.start),
                                   Edge(left.final, EPSILON, f), Edge(right.final, EPSILON, f)},
                        b.finals + {f}, b.nextId + 2))
      else
        Success(Builder(b.stack[..n - 2] + [Fragment(left.start, right.final)],
                        b.edges + {Edge(left.final, EPSILON, right.start)},
                        b.finals - {left.final}, b.nextId))
  }

  /** The builder after the whole of `p`. A scan only fails for a missing
      operand, keeps every transition it is given and never reuses a node
      id. */
  function Scan(b: Builder, p: string): (r: Result<Builder, NfaError>)
    ensures r.Failure? ==> r.error == MissingOperand
    ensures r.Success? ==> b.edges <= r.value.edges && b.nextId <= r.value.nextId
    decreases |p|
  {
    if p == [] then Success(b)
    else
      match Scan(b, p[..|p| - 1])
        case Failure(e) => Failure(e)
        case Success(s) => Step(s, p[|p| - 1])
  }

  /** What `build_nfa(p)` leaves: the node state and the top fragment, or
      the error it stops with. */
  function Build(p: string): (r: Result<(Builder, Fragment), NfaError>)
    ensures r.Success? ==> Scan(Empty(), p) == Success(r.value.0) && r.value.1 in r.value.0.stack
    ensures r == Failure(InvalidRegularExpression) <==> Scan(Empty(), p).Success? && Scan(Empty(), p).value.stack == []
  {
    match Scan(Empty(), p)
      case Failure(e) => Failure(e)
      case Success(b) =>
        if b.stack == [] then Failure(InvalidRegularExpression)
        else Success((b, b.stack[|b.stack| - 1]))
  }

  // ---------------------------------------------------------------------
  // What one character does

  /** A character succeeds exactly when the stack holds the operands it
      pops; it then replaces them by one fragment and leaves the rest of the
      stack alone. Transitions are only added, nodes handed out stay handed
      out, and a new fragment's fresh nodes are the next ids. */
  lemma StepShape(b: Builder, c: char)
    ensures Step(b, c).Success? <==> Pops(c) <= |b.stack|
    ensures Step(b, c).Success? ==>
      var r := Step(b, c).value;
      && |r.stack| == |b.stack| - Pops(c) + 1
      && r.stack[..|b.stack| - Pops(c)] == b.stack[..|b.stack| - Pops(c)]
      && b.edges <= r.edges
      && b.nextId <= r.nextId
  {
  }

  /** A literal pushes one fragment on two fresh nodes, joined by a single
      transition on that literal; only the new final node is flagged. */
  lemma StepLiteral(b: Builder, c: char)
    requires !IsOperator(c)
    ensures Step(b, c).Success?
    ensures var r := Step(b, c).value;
      var top := r.stack[|r.stack| - 1];
      && top.start == b.nextId && top.final == b.nextId + 1
      && r.edges - b.edges <= {Edge(top.start, c, top.final)}
      && Edge(top.start, c, top.final) in r.edges
      && r.finals == b.finals + {top.final}
  {
  }

  /** `+` is not an operator of the postfix syntax: it is read as the
      literal `+`. */
  lemma PlusIsLiteral(b: Builder)
    ensures Step(b, '+') == Success(Builder(b.stack + [Fragment(b.nextId, b.nextId + 1)],
      b.edges + {Edge(b.nextId, '+', b.nextId + 1)}, b.finals + {b.nextId + 1}, b.nextId + 2))
  {
  }

  /** The invariant of the build: every node mentioned is allocated. */
  lemma StepAllocated(b: Builder, c: char)
    requires Allocated(b)
    ensures Step(b, c).Success? ==> Allocated(Step(b, c).value)
  {
    if Step(b, c).Success? {
      var r := Step(b, c).value;
      var n := |b.stack|;
      forall i | 0 <= i < |r.stack|
        ensures 1 <= r.stack[i].start < r.nextId && 1 <= r.stack[i].final < r.nextId
      {
        if i < n - Pops(c) {
          assert r.stack[i] == b.stack[i];
        }
      }
      if c == '.' {
        assert b.stack[n - 2] in b.stack && b.stack[n - 1] in b.stack;
      }
    }
  }

  // ---------------------------------------------------------------------
  // Which postfix expressions build

  /** Fragments on the stack after `p`, counted by arity: each literal adds
      one, each binary operator removes one, `*` leaves the count alone. */
  function Depth(p: string): int
    decreases |p|
  {
    if p == [] then 0
    else Depth(p[..|p| - 1]) + 1 - Pops(p[|p| - 1])
  }

  /** Every operator of `p` finds its operands on the stack. */
  ghost predicate OperandsAvailable(p: string)
  {
    forall i :: 0 <= i < |p| ==> Pops(p[i]) <= Depth(p[..i])
  }

  lemma OperandsAvailablePrefix(p: string)
    requires p != []
    ensures OperandsAvailable(p) <==>
      OperandsAvailable(p[..|p| - 1]) && Pops(p[|p| - 1]) <= Depth(p[..|p| - 1])
  {
    var q := p[..|p| - 1];
    forall i | 0 <= i < |q|
      ensures q[i] == p[i] && q[..i] == p[..i]
    {
    }
  }

  /** The scan of `p` succeeds exactly when every operator finds its
      operands, and then leaves `Depth(p)` fragments on the stack; every
      node it mentions is allocated. */
  lemma {:induction false} ScanSucceedsIff(p: string)
    ensures Scan(Empty(), p).Success? <==> OperandsAvailable(p)
    ensures Scan(Empty(), p).Failure? ==> Scan(Empty(), p).error == MissingOperand
    ensures Scan(Empty(), p).Success? ==> |Scan(Empty(), p).value.stack| == Depth(p)
    ensures Scan(Empty(), p).Success? ==> Allocated(Scan(Empty(), p).value)
    decreases |p|
  {
    if p != [] {
      var q, c := p[..|p| - 1], p[|p| - 1];
      ScanSucceedsIff(q);
      OperandsAvailablePrefix(p);
      if Scan(Empty(), q).Success? {
        StepShape(Scan(Empty(), q).value, c);
        StepAllocated(Scan(Empty(), q).value, c);
      }
    }
  }

  /** `build_nfa(p)` succeeds exactly when every operator finds its
      operands and at least one fragment is left at the end. */
  lemma BuildSucceedsIff(p: string)
    ensures Build(p).Success? <==> OperandsAvailable(p) && Depth(p) >= 1
    ensures Build(p) == Failure(InvalidRegularExpression) <==> OperandsAvailable(p) && Depth(p) <= 0
  {
    ScanSucceedsIff(p);
  }

  /** The empty expression and a lone operator do not build. */
  lemma BuildRejects()
    ensures Build("") == Failure(InvalidRegularExpression)
    ensures Build("*") == Failure(MissingOperand)
    ensures Build("a|") == Failure(MissingOperand)
  {
    assert "*"[..0] == [];
    assert "a|"[..1] == "a" && "a"[..0] == [];
  }

  /** `ab` without an operator builds, and its result is the fragment of
      `b`, the top of the stack; the fragment of `a` is left behind. */
  lemma BuildKeepsTop()
    ensures Build("ab").Success? && Build("ab").value.1 == Fragment(3, 4)
  {
    assert "ab"[..1] == "a" && "a"[..0] == [];
  }

  class NfaAutomaton {
    /** The transitions and final flags of every node built. */
    var edges: set<Edge>
    var finals: set<int>
    /** `m_graph`: the fragment `build_nfa` left on top of the stack. */
    var graph: Option<Fragment>

    /** `NFA(postfix_regex)`: builds the automaton; when `build_nfa` stops
        with an error there is no graph. */
    constructor (postfixRegex: string)
      ensures Build(postfixRegex).Success? ==>
        graph == Some(Build(postfixRegex).value.1)
        && edges == Build(postfixRegex).value.0.edges && finals == Build(postfixRegex).value.0.finals
      ensures Build(postfixRegex).Failure? ==> graph == None
    {
      edges, finals, graph := {}, {}, None;
      new;
      var _ := BuildNfa(postfixRegex);
    }

    /** `build_nfa`: one pass over the expression with a stack of fragments
        and a counter of node ids; on success `m_graph` is the top of the
        stack. */
    method BuildNfa(postfixRegex: string) returns (r: Result<Fragment, NfaError>)
      modifies this
      ensures Build(postfixRegex).Success? ==>
        r == Success(Build(postfixRegex).value.1) && graph == Some(r.value)
        && edges == Build(postfixRegex).value.0.edges && finals == Build(postfixRegex).value.0.finals
      ensures Build(postfixRegex).Failure? ==>
        r == Failure(Build(postfixRegex).error) && graph == old(graph)
        && edges == old(edges) && finals == old(finals)
    {
      var p := postfixRegex;
      var stack: seq<Fragment> := [];
      var nextId := 1;
      var nodeEdges: set<Edge> := {};
      var nodeFinals: set<int> := {};
      var i := 0;
      while i < |p|
        invariant 0 <= i <= |p|
        invariant Scan(Empty(), p[..i]) == Success(Builder(stack, nodeEdges, nodeFinals, nextId))
        invariant graph == old(graph) && edges == old(edges) && finals == old(finals)
      {
        var c := p[i];
        assert p[..i + 1][..i] == p[..i];
        ghost var before := Builder(stack, nodeEdges, nodeFinals, nextId);
        var n := |stack|;
        if !IsOperator(c) {
          var s, f := nextId, nextId + 1;
          nextId := nextId + 2;
          nodeFinals := nodeFinals + {f};
          nodeEdges := nodeEdges + {Edge(s, c, f)};
          stack := stack + [Fragment(s, f)];
        } else if c == '*' {
          var s, f := nextId, nextId + 1;
          nextId := nextId + 2;
          nodeFinals := nodeFinals + {f};
          if n < 1 {
            r := Failure(MissingOperand);
            ScanFails(p, i + 1);
            return;
          }
          var prev := stack[n - 1];
          stack := stack[..n - 1];
          nodeEdges := nodeEdges + {Edge(s, EPSILON, prev.start), Edge(s, EPSILON, f),
                                    Edge(prev.final, EPSILON, prev.start), Edge(prev.final, EPSILON, f)};
          stack := stack + [Fragment(s, f)];
        } else if c == '|' {
          var s, f := nextId, nextId + 1;
          nextId := nextId + 2;
          nodeFinals := nodeFinals + {f};
          if n < 2 {
            r := Failure(MissingOperand);
            ScanFails(p, i + 1);
            return;
          }
          var right := stack[n - 1];
          var left := stack[n - 2];
          stack := stack[..n - 2];
          nodeEdges := nodeEdges + {Edge(s, EPSILON, left.start), Edge(s, EPSILON, right.start),
                                    Edge(left.final, EPSILON, f), Edge(right.final, EPSILON, f)};
          stack := stack + [Fragment(s, f)];
        } else {
          if n < 2 {
            r := Failure(MissingOperand);
            ScanFails(p, i + 1);
            return;
          }
          var right := stack[n - 1];
          var left := stack[n - 2];
          stack := stack[..n - 2];
          nodeEdges := nodeEdges + {Edge(left.final, EPSILON, right.start)};
          nodeFinals := nodeFinals - {left.final};
          stack := stack + [Fragment(left.start, right.final)];
        }
        assert Step(before, c) == Success(Builder(stack, nodeEdges, nodeFinals, nextId));
        i := i + 1;
      }
      assert p[..i] == p;
      if stack != [] {
        edges, finals := nodeEdges, nodeFinals;
        graph := Some(stack[|stack| - 1]);
        r := Success(stack[|stack| - 1]);
      } else {
        r := Failure(InvalidRegularExpression);
      }
    }

    /** `accepts(str)`: the EPSILON-closure simulation from the start of the
        automaton; for an input without EPSILON this is acceptance by some
        run of the automaton. */
    method Accepts(str: string) returns (r: bool)
      requires graph.Some?
      ensures r == SimulationAccepts(edges, graph.value.start, finals, str)
      ensures EPSILON !in str ==> (r <==> Accepted(edges, graph.value.start, finals, str))
    {
      r := RunSimulation(edges, graph.value.start, finals, str);
    }
  }

  /** A scan that fails on a prefix fails on the whole expression. */
  lemma {:induction false} ScanFails(p: string, n: int)
    requires 0 <= n <= |p| && Scan(Empty(), p[..n]).Failure?
    ensures Scan(Empty(), p) == Scan(Empty(), p[..n])
    decreases |p|
  {
    if n < |p| {
      var q := p[..|p| - 1];
      assert q[..n] == p[..n];
      ScanFails(q, n);
    } else {
      assert p[..n] == p;
    }
  }

  // ---------------------------------------------------------------------
  // Final flags left behind by `*` and `|`

  /** `a*b.` builds, and the node that ended the fragment of `a` is still
      flagged final: `*` flags its new final node without clearing the
      operand's, and `.` only clears the left operand's own final. So the
      automaton accepts `a`, which `a*b` does not match. */
  lemma StaleFinalAcceptsPrefix()
    ensures Build("a*b.").Success?
    ensures var (b, top) := Build("a*b.").value;
      && b.stack == [top] && top == Fragment(3, 6) && b.finals == {2, 6} && b.nextId == 7
      && b.edges == {Edge(1, 'a', 2), Edge(3, EPSILON, 1), Edge(3, EPSILON, 4), Edge(2, EPSILON, 1),
                     Edge(2, EPSILON, 4), Edge(5, 'b', 6), Edge(4, EPSILON, 5)}
      && Accepted(b.edges, top.start, b.finals, "a")
  {
    assert "a*b."[..3] == "a*b" && "a*b"[..2] == "a*" && "a*"[..1] == "a" && "a"[..0] == [];
    var b := Build("a*b.").value.0;
    var path := [Edge(3, EPSILON, 1), Edge(1, 'a', 2)];
    assert IsRun(b.edges, path[2..], 2, "a"[1..], 2);
    assert IsRun(b.edges, path[1..], 1, "a", 2);
    assert IsRun(b.edges, path, 3, "a", 2);
    assert 2 in b.finals;
  }

  /** The finals of the fragments on a stack. */
  function StackFinals(stack: seq<Fragment>): set<int>
    decreases |stack|
  {
    if stack == [] then {} else StackFinals(stack[..|stack| - 1]) + {stack[|stack| - 1].final}
  }

  /** No two fragments on the stack share their final node. */
  ghost predicate DistinctFinals(stack: seq<Fragment>)
    decreases |stack|
  {
    stack == [] ||
    (DistinctFinals(stack[..|stack| - 1]) && stack[|stack| - 1].final !in StackFinals(stack[..|stack| - 1]))
  }

  /** What `get_final_node()` takes for granted: the flagged nodes are
      exactly the finals of the fragments on the stack, one each. */
  ghost predicate OneFinalPerFragment(b: Builder)
  {
    && DistinctFinals(b.stack)
    && b.finals == StackFinals(b.stack)
    && forall v :: v in b.finals ==> v < b.nextId
  }

  /** The builder as `*` and `|` are evidently meant to work: the operands'
      final nodes stop being final once they are joined to the new final
      node, as `.` already does for its left operand. Everything else is
      `Step`. */
  function IntendedStep(b: Builder, c: char): (r: Result<Builder, NfaError>)
  {
    match Step(b, c)
      case Failure(e) => Failure(e)
      case Success(s) =>
        var n := |b.stack|;
        if c == '*' then
          Success(s.(finals := b.finals - {b.stack[n - 1].final} + {b.nextId + 1}))
        else if c == '|' then
          Success(s.(finals := b.finals - {b.stack[n - 2].final, b.stack[n - 1].final} + {b.nextId + 1}))
        else
          Success(s)
  }

  function IntendedScan(b: Builder, p: string): Result<Builder, NfaError>
    decreases |p|
  {
    if p == [] then Success(b)
    else
      match IntendedScan(b, p[..|p| - 1])
        case Failure(e) => Failure(e)
        case Success(s) => IntendedStep(s, p[|p| - 1])
  }

  function IntendedBuild(p: string): Result<(Builder, Fragment), NfaError>
  {
    match IntendedScan(Empty(), p)
      case Failure(e) => Failure(e)
      case Success(b) =>
        if b.stack == [] then Failure(InvalidRegularExpression)
        else Success((b, b.stack[|b.stack| - 1]))
  }

  /** Pushing a fragment adds its final to the stack's finals. */
  lemma StackFinalsPush(prefix: seq<Fragment>, x: Fragment)
    ensures StackFinals(prefix + [x]) == StackFinals(prefix) + {x.final}
    ensures DistinctFinals(prefix + [x]) <==> DistinctFinals(prefix) && x.final !in StackFinals(prefix)
  {
    assert (prefix + [x])[..|prefix|] == prefix;
  }

  /** Popping the top fragment of a stack with distinct finals. */
  lemma StackFinalsPop(stack: seq<Fragment>)
    requires stack != [] && DistinctFinals(stack)
    ensures var prefix := stack[..|stack| - 1];
      && StackFinals(stack) == StackFinals(prefix) + {stack[|stack| - 1].final}
      && DistinctFinals(prefix) && stack[|stack| - 1].final !in StackFinals(prefix)
  {
    StackFinalsPush(stack[..|stack| - 1], stack[|stack| - 1]);
    assert stack[..|stack| - 1] + [stack[|stack| - 1]] == stack;
  }

  /** A literal pushes a fragment whose final is a fresh node. */
  lemma LiteralKeepsOneFinal(b: Builder, c: char)
    requires OneFinalPerFragment(b) && !IsOperator(c)
    ensures OneFinalPerFragment(IntendedStep(b, c).value)
  {
    StackFinalsPush(b.stack, Fragment(b.nextId, b.nextId + 1));
  }

  /** `*` swaps the operand's final for a fresh node. */
  lemma StarKeepsOneFinal(b: Builder)
    requires OneFinalPerFragment(b) && |b.stack| >= 1
    ensures OneFinalPerFragment(IntendedStep(b, '*').value)
  {
    var n := |b.stack|;
    var prefix, f := b.stack[..n - 1], b.nextId + 1;
    StackFinalsPop(b.stack);
    StackFinalsPush(prefix, Fragment(b.nextId, f));
    assert IntendedStep(b, '*').value.stack == prefix + [Fragment(b.nextId, f)];
    assert IntendedStep(b, '*').value.finals == StackFinals(prefix) + {f};
  }

  /** Popping the two operands of a binary operator. */
  lemma StackFinalsPopTwo(stack: seq<Fragment>)
    requires |stack| >= 2 && DistinctFinals(stack)
    ensures var (n, prefix) := (|stack|, stack[..|stack| - 2]);
      && StackFinals(stack) == StackFinals(prefix) + {stack[n - 2].final} + {stack[n - 1].final}
      && DistinctFinals(prefix)
      && stack[n - 2].final !in StackFinals(prefix)
      && stack[n - 1].final !in StackFinals(prefix) + {stack[n - 2].final}
  {
    var n := |stack|;
    StackFinalsPop(stack);
    StackFinalsPop(stack[..n - 1]);
    assert stack[..n - 1][..n - 2] == stack[..n - 2];
  }

  /** `|` swaps both operands' finals for a fresh node. */
  lemma OrKeepsOneFinal(b: Builder)
    requires OneFinalPerFragment(b) && |b.stack| >= 2
    ensures OneFinalPerFragment(IntendedStep(b, '|').value)
  {
    var n := |b.stack|;
    var prefix, f := b.stack[..n - 2], b.nextId + 1;
    StackFinalsPopTwo(b.stack);
    StackFinalsPush(prefix, Fragment(b.nextId, f));
    assert IntendedStep(b, '|').value.stack == prefix + [Fragment(b.nextId, f)];
    assert IntendedStep(b, '|').value.finals == StackFinals(prefix) + {f};
  }

  /** `.` drops the left operand's final and keeps the right one's. */
  lemma ConcatKeepsOneFinal(b: Builder)
    requires OneFinalPerFragment(b) && |b.stack| >= 2
    ensures OneFinalPerFragment(IntendedStep(b, '.').value)
  {
    var n := |b.stack|;
    var prefix := b.stack[..n - 2];
    var joined := Fragment(b.stack[n - 2].start, b.stack[n - 1].final);
    StackFinalsPopTwo(b.stack);
    StackFinalsPush(prefix, joined);
    assert IntendedStep(b, '.').value.stack == prefix + [joined];
    assert IntendedStep(b, '.').value.finals == StackFinals(prefix) + {joined.final};
  }

  /** Each intended step keeps one final per fragment. */
  lemma IntendedStepKeepsOneFinal(b: Builder, c: char)
    requires OneFinalPerFragment(b)
    ensures IntendedStep(b, c).Success? ==> OneFinalPerFragment(IntendedStep(b, c).value)
  {
    if !IsOperator(c) {
      LiteralKeepsOneFinal(b, c);
    } else if IntendedStep(b, c).Success? {
      StepShape(b, c);
      if c == '*' {
        StarKeepsOneFinal(b);
      } else if c == '|' {
        OrKeepsOneFinal(b);
      } else {
        ConcatKeepsOneFinal(b);
      }
    }
  }

  /** Builders that differ at most in their final flags. */
  predicate SameButFinals(x: Builder, y: Builder)
  {
    x.stack == y.stack && x.edges == y.edges && x.nextId == y.nextId
  }

  /** Final flags never steer a step: from builders that differ only in
      them, the intended step and `Step` both succeed or both fail, and
      again differ only in final flags. */
  lemma IntendedStepAgrees(x: Builder, y: Builder, c: char)
    requires SameButFinals(x, y)
    ensures IntendedStep(x, c).Success? <==> Step(y, c).Success?
    ensures IntendedStep(x, c).Failure? ==> IntendedStep(x, c).error == Step(y, c).error
    ensures IntendedStep(x, c).Success? ==> SameButFinals(IntendedStep(x, c).value, Step(y, c).value)
  {
  }

  /** The correction changes only final flags: an expression builds under
      `IntendedScan` exactly when it builds under `Scan`, with the same
      stack, transitions and node count. */
  lemma {:induction false} IntendedScanAgrees(p: string)
    ensures IntendedScan(Empty(), p).Success? <==> Scan(Empty(), p).Success?
    ensures IntendedScan(Empty(), p).Success? ==>
      SameButFinals(IntendedScan(Empty(), p).value, Scan(Empty(), p).value)
    decreases |p|
  {
    if p != [] {
      var q, c := p[..|p| - 1], p[|p| - 1];
      IntendedScanAgrees(q);
      if IntendedScan(Empty(), q).Success? {
        IntendedStepAgrees(IntendedScan(Empty(), q).value, Scan(Empty(), q).value, c);
      }
    }
  }

  /** Under the intended builder every prefix leaves one final node per
      fragment on the stack. */
  lemma {:induction false} IntendedScanKeepsOneFinal(p: string)
    ensures IntendedScan(Empty(), p).Success? ==> OneFinalPerFragment(IntendedScan(Empty(), p).value)
    decreases |p|
  {
    if p != [] {
      var q := p[..|p| - 1];
      IntendedScanKeepsOneFinal(q);
      if IntendedScan(Empty(), q).Success? {
        IntendedStepKeepsOneFinal(IntendedScan(Empty(), q).value, p[|p| - 1]);
      }
    }
  }

  /** A complete postfix expression (one fragment left) builds an automaton
      whose only final node is the final of its fragment. */
  lemma IntendedBuildHasOneFinal(p: string)
    requires OperandsAvailable(p) && Depth(p) == 1
    ensures IntendedBuild(p).Success?
    ensures var (b, top) := IntendedBuild(p).value; b.finals == {top.final}
  {
    ScanSucceedsIff(p);
    IntendedScanAgrees(p);
    IntendedScanKeepsOneFinal(p);
    var b := IntendedScan(Empty(), p).value;
    assert b.stack[..0] == [];
  }

  /** On `a*b.` the intended builder flags only the final of `b`. */
  lemma IntendedBuildDropsStaleFinal()
    ensures IntendedBuild("a*b.").Success? && IntendedBuild("a*b.").value.0.finals == {6}
  {
    StaleFinalAcceptsPrefix();
    ScanSucceedsIff("a*b.");
    IntendedScanAgrees("a*b.");
    IntendedBuildHasOneFinal("a*b.");
  }

  /** What the intended builder leaves for `a*b.`, node by node: `a` is
      `1 --a--> 2`, the star adds 3 and 4, `b` is `5 --b--> 6`, and the
      concatenation joins 4 to 5; only 6 is final. */
  lemma IntendedBuildStarThenLiteral()
    ensures IntendedBuild("a*b.") == Success((Builder([Fragment(3, 6)],
      {Edge(1, 'a', 2), Edge(3, EPSILON, 1), Edge(3, EPSILON, 4), Edge(2, EPSILON, 1),
       Edge(2, EPSILON, 4), Edge(5, 'b', 6), Edge(4, EPSILON, 5)}, {6}, 7), Fragment(3, 6)))
  {
    assert "a*b."[..3] == "a*b" && "a*b"[..2] == "a*" && "a*"[..1] == "a" && "a"[..0] == [];
    StaleFinalAcceptsPrefix();
    ScanSucceedsIff("a*b.");
    IntendedScanAgrees("a*b.");
    IntendedBuildDropsStaleFinal();
  }

  /** With the correction, `a*b.` no longer accepts `a`: after reading it a
      run is at one of the nodes 1, 2, 4 and 5, and only 6 is final. It
      still accepts `ab`. */
  lemma IntendedBuildRejectsPrefix()
    ensures IntendedBuild("a*b.").Success?
    ensures var (b, top) := IntendedBuild("a*b.").value;
      !Accepted(b.edges, top.start, b.finals, "a") && Accepted(b.edges, top.start, b.finals, "ab")
  {
    IntendedBuildStarThenLiteral();
    var edges := {Edge(1, 'a', 2), Edge(3, EPSILON, 1), Edge(3, EPSILON, 4), Edge(2, EPSILON, 1),
                  Edge(2, EPSILON, 4), Edge(5, 'b', 6), Edge(4, EPSILON, 5)};
    var before, after := {3, 1, 4, 5}, {2, 1, 4, 5};
    assert EpsClosed(edges, before) && EpsClosed(edges, after);
    forall p, f | IsRun(edges, p, 3, "a", f)
      ensures f in after
    {
      ReadOneEndsIn(edges, p, 3, 'a', f, before, after);
    }
    var path := [Edge(3, EPSILON, 1), Edge(1, 'a', 2), Edge(2, EPSILON, 4), Edge(4, EPSILON, 5), Edge(5, 'b', 6)];
    assert IsRun(edges, path, 3, "ab", 6) by {
      assert "ab"[1..] == "b" && "b"[1..] == [];
      assert IsRun(edges, path[4..], 5, "b", 6) by { assert path[4..][1..] == []; }
      assert IsRun(edges, path[3..], 4, "b", 6) by { assert path[3..][1..] == path[4..]; }
      assert IsRun(edges, path[2..], 2, "b", 6) by { assert path[2..][1..] == path[3..]; }
      assert IsRun(edges, path[1..], 1, "ab", 6) by { assert path[1..][1..] == path[2..]; }
    }
  }
}

=== FILE: nfa_semantics.dfy ===
/**
  Transitions of a nondeterministic automaton over integer state ids, the
  epsilon closure of a set of states, the set-of-states simulation that
  decides acceptance, and the meaning that simulation must have: a run
  through the transitions whose non-epsilon labels spell the input.
 */
module Semantics {

  /** The label of a transition taken without reading input. Its value is
      declared outside the files of this model; any fixed character works. */
  const EPSILON: char := '\0'

  /** A transition `from --symbol--> to`. */
  datatype Edge = Edge(from: int, symbol: char, to: int)

  /** The states reached from a state of `s` by one transition labelled `c`. */
  function Move(edges: set<Edge>, s: set<int>, c: char): set<int>
  {
    set e | e in edges && e.from in s && e.symbol == c :: e.to
  }

  lemma MoveMember(edges: set<Edge>, s: set<int>, c: char, e: Edge)
    requires e in edges && e.from in s && e.symbol == c
    ensures e.to in Move(edges, s, c)
  {
  }

  /** Every state some transition leads to. */
  function Targets(edges: set<Edge>): set<int>
  {
    set e | e in edges :: e.to
  }

  /** `s` is closed under epsilon transitions. */
  ghost predicate EpsClosed(edges: set<Edge>, s: set<int>)
  {
    forall e :: e in edges && e.symbol == EPSILON && e.from in s ==> e.to in s
  }

  lemma SubsetCardinality(a: set<int>, b: set<int>)
    requires a <= b
    ensures |a| <= |b|
  {
    assert b == a + (b - a);
  }

  /** A non-empty set has a member. */
  lemma NonEmptyHasElement<T>(s: set<T>)
    requires s != {}
    ensures exists x :: x in s
  {
    if forall x :: x !in s {
      assert false;
    }
  }

  /** Some member of a non-empty set. */
  ghost function ElementOf<T>(s: set<T>): (x: T)
    requires s != {}
    ensures x in s
  {
    NonEmptyHasElement(s);
    var x :| x in s; x
  }

  lemma StrictSubsetCardinality(a: set<int>, b: set<int>)
    requires a < b
    ensures |a| < |b|
  {
    var x := ElementOf(b - a);
    SubsetCardinality(a, b - {x});
  }

  /** Adds epsilon successors to `s` until nothing new appears; `bound`
      holds every state the iteration can add. */
  function ClosureWithin(edges: set<Edge>, bound: set<int>, s: set<int>): (r: set<int>)
    requires s <= bound && Targets(edges) <= bound
    ensures s <= r <= bound
    ensures EpsClosed(edges, r)
    decreases |bound - s|
  {
    var next := Move(edges, s, EPSILON);
    if next <= s then s
    else
      StrictSubsetCardinality(bound - (s + next), bound - s);
      ClosureWithin(edges, bound, s + next)
  }

  /** The epsilon closure of `s`: the smallest superset of `s` closed under
      epsilon transitions. */
  function Closure(edges: set<Edge>, s: set<int>): (r: set<int>)
  {
    ClosureWithin(edges, s + Targets(edges), s)
  }

  lemma {:induction false} ClosureWithinLeast(edges: set<Edge>, bound: set<int>, s: set<int>, t: set<int>)
    requires s <= bound && Targets(edges) <= bound
    requires s <= t && EpsClosed(edges, t)
    ensures ClosureWithin(edges, bound, s) <= t
    decreases |bound - s|
  {
    var next := Move(edges, s, EPSILON);
    if !(next <= s) {
      StrictSubsetCardinality(bound - (s + next), bound - s);
      ClosureWithinLeast(edges, bound, s + next, t);
    }
  }

  /** The closure contains `s`, is closed, and lies inside every closed
      superset of `s`. */
  lemma ClosureIsLeast(edges: set<Edge>, s: set<int>, t: set<int>)
    ensures s <= Closure(edges, s) && EpsClosed(edges, Closure(edges, s))
    ensures s <= t && EpsClosed(edges, t) ==> Closure(edges, s) <= t
  {
    if s <= t && EpsClosed(edges, t) {
      ClosureWithinLeast(edges, s + Targets(edges), s, t);
    }
  }

  /** Taking the closure twice adds nothing. */
  lemma ClosureIdempotent(edges: set<Edge>, s: set<int>)
    ensures Closure(edges, Closure(edges, s)) == Closure(edges, s)
  {
    var c := Closure(edges, s);
    ClosureIsLeast(edges, s, c);
    ClosureIsLeast(edges, c, c);
  }

  /** The closure of the empty set is empty. */
  lemma ClosureOfEmpty(edges: set<Edge>)
    ensures Closure(edges, {}) == {}
  {
    ClosureIsLeast(edges, {}, {});
  }

  // ---------------------------------------------------------------------
  // Runs: the meaning of acceptance

  /** `path` walks through `edges` from `x` to `y`, and its non-epsilon
      labels, in order, spell `w`. */
  ghost predicate IsRun(edges: set<Edge>, path: seq<Edge>, x: int, w: seq<char>, y: int)
    decreases |path|
  {
    if path == [] then x == y && w == []
    else
      var e := path[0];
      && e in edges
      && e.from == x
      && if e.symbol == EPSILON then IsRun(edges, path[1..], e.to, w, y)
         else w != [] && w[0] == e.symbol && IsRun(edges, path[1..], e.to, w[1..], y)
  }

  /** Some run spelling `w` leads from `start` to a state of `finals`. */
  ghost predicate Accepted(edges: set<Edge>, start: int, finals: set<int>, w: seq<char>)
  {
    exists path, f :: f in finals && IsRun(edges, path, start, w, f)
  }

  /** Two runs that meet join into one. */
  lemma {:induction false} RunAppend(edges: set<Edge>, p: seq<Edge>, x: int, u: seq<char>, y: int,
                                     q: seq<Edge>, v: seq<char>, z: int)
    requires IsRun(edges, p, x, u, y) && IsRun(edges, q, y, v, z)
    ensures IsRun(edges, p + q, x, u + v, z)
    decreases |p|
  {
    if p == [] {
      assert p + q == q;
      assert u + v == v;
    } else {
      var e := p[0];
      assert (p + q)[1..] == p[1..] + q;
      if e.symbol == EPSILON {
        RunAppend(edges, p[1..], e.to, u, y, q, v, z);
      } else {
        RunAppend(edges, p[1..], e.to, u[1..], y, q, v, z);
        assert (u + v)[1..] == u[1..] + v;
      }
    }
  }

  /** A run of one transition. */
  lemma SingleStepRun(edges: set<Edge>, e: Edge)
    requires e in edges
    ensures IsRun(edges, [e], e.from, if e.symbol == EPSILON then [] else [e.symbol], e.to)
  {
    assert [e][1..] == [];
  }

  /** An epsilon-only run never leaves a closed set. */
  lemma {:induction false} EpsRunStaysInClosed(edges: set<Edge>, p: seq<Edge>, x: int, y: int, t: set<int>)
    requires IsRun(edges, p, x, [], y) && x in t && EpsClosed(edges, t)
    ensures y in t
    decreases |p|
  {
    if p != [] {
      EpsRunStaysInClosed(edges, p[1..], p[0].to, y, t);
    }
  }

  /** A run that reads the single character `c` from a state of the
      epsilon-closed set `a` ends in `b`, when `b` is epsilon-closed and
      holds every state a `c` transition leads to from `a`. */
  lemma ReadOneEndsIn(edges: set<Edge>, p: seq<Edge>, x: int, c: char, y: int, a: set<int>, b: set<int>)
    requires c != EPSILON && IsRun(edges, p, x, [c], y)
    requires x in a && EpsClosed(edges, a) && EpsClosed(edges, b)
    requires forall e :: e in edges && e.from in a && e.symbol == c ==> e.to in b
    ensures y in b
  {
    assert [c] == [c] + [];
    RunSplitFirst(edges, p, x, c, [], y);
    var q, e, r :| e in edges && e.symbol == c && IsRun(edges, q, x, [], e.from) && IsRun(edges, r, e.to, [], y);
    EpsRunStaysInClosed(edges, q, x, e.from, a);
    EpsRunStaysInClosed(edges, r, e.to, y, b);
  }

  /** Every transition is labelled EPSILON or `c`. */
  ghost predicate OnlyLabel(edges: set<Edge>, c: char)
  {
    forall e :: e in edges ==> e.symbol == EPSILON || e.symbol == c
  }

  /** Through transitions labelled only EPSILON or `c`, every run spells a
      word made of `c` alone. */
  lemma {:induction false} RunSpellsOnly(edges: set<Edge>, p: seq<Edge>, x: int, w: seq<char>, y: int, c: char)
    requires OnlyLabel(edges, c) && IsRun(edges, p, x, w, y)
    ensures forall i :: 0 <= i < |w| ==> w[i] == c
    decreases |p|
  {
    if p != [] {
      var e := p[0];
      if e.symbol == EPSILON {
        RunSpellsOnly(edges, p[1..], e.to, w, y, c);
      } else {
        RunSpellsOnly(edges, p[1..], e.to, w[1..], y, c);
        forall i | 1 <= i < |w|
          ensures w[i] == c
        {
          assert w[i] == w[1..][i - 1];
        }
      }
    }
  }

  /** The states reachable from `s` by epsilon-only runs. */
  ghost function EpsReach(edges: set<Edge>, s: set<int>): set<int>
  {
    set y | y in s + Targets(edges) && exists x, p :: x in s && IsRun(edges, p, x, [], y)
  }

  lemma EpsReachClosedSuperset(edges: set<Edge>, s: set<int>)
    ensures s <= EpsReach(edges, s)
    ensures EpsClosed(edges, EpsReach(edges, s))
  {
    var r := EpsReach(edges, s);
    forall x | x in s ensures x in r {
      assert IsRun(edges, [], x, [], x);
    }
    forall e | e in edges && e.symbol == EPSILON && e.from in r ensures e.to in r {
      var x, p :| x in s && IsRun(edges, p, x, [], e.from);
      SingleStepRun(edges, e);
      RunAppend(edges, p, x, [], e.from, [e], [], e.to);
      var none: seq<char> := [];
      assert none + none == none;
    }
  }

  /** The closure is exactly the set of states epsilon-reachable from `s`. */
  lemma ClosureIsEpsReach(edges: set<Edge>, s: set<int>, y: int)
    ensures y in Closure(edges, s) <==> exists x, p :: x in s && IsRun(edges, p, x, [], y)
  {
    if y in Closure(edges, s) {
      EpsReachClosedSuperset(edges, s);
      ClosureIsLeast(edges, s, EpsReach(edges, s));
      assert y in EpsReach(edges, s);
      var x, p :| x in s && IsRun(edges, p, x, [], y);
      assert exists x, p :: x in s && IsRun(edges, p, x, [], y);
    }
    if exists x, p :: x in s && IsRun(edges, p, x, [], y) {
      var x, p :| x in s && IsRun(edges, p, x, [], y);
      ClosureIsLeast(edges, s, {});
      EpsRunStaysInClosed(edges, p, x, y, Closure(edges, s));
      assert y in Closure(edges, s);
    }
  }

  // ---------------------------------------------------------------------
  // The set-of-states simulation

  /** The states the simulation holds after reading `w`, starting from the
      closed set `current`: each character moves every state along its
      transitions with that label and closes the result. */
  function Simulate(edges: set<Edge>, current: set<int>, w: seq<char>): set<int>
    decreases |w|
  {
    if w == [] then current
    else Simulate(edges, Closure(edges, Move(edges, current, w[0])), w[1..])
  }

  /** Acceptance by simulation: close `{start}`, read every character, and
      accept when a final state remains. */
  function SimulationAccepts(edges: set<Edge>, start: int, finals: set<int>, w: seq<char>): bool
  {
    Simulate(edges, Closure(edges, {start}), w) * finals != {}
  }

  /** Once no state survives, none ever comes back. */
  lemma {:induction false} SimulateEmpty(edges: set<Edge>, w: seq<char>)
    ensures Simulate(edges, {}, w) == {}
    decreases |w|
  {
    if w != [] {
      assert Move(edges, {}, w[0]) == {};
      ClosureOfEmpty(edges);
      SimulateEmpty(edges, w[1..]);
    }
  }

  /** A run that reads a first character splits into an epsilon-only run, one
      transition labelled with that character, and a run over the rest. */
  lemma {:induction false} RunSplitFirst(edges: set<Edge>, p: seq<Edge>, x: int, c: char, w: seq<char>, y: int)
    requires c != EPSILON
    requires IsRun(edges, p, x, [c] + w, y)
    ensures exists q, e, r :: e in edges && e.symbol == c && IsRun(edges, q, x, [], e.from)
                             && IsRun(edges, r, e.to, w, y)
    decreases |p|
  {
    var e := p[0];
    if e.symbol == EPSILON {
      RunSplitFirst(edges, p[1..], e.to, c, w, y);
      var q, e', r :| e' in edges && e'.symbol == c && IsRun(edges, q, e.to, [], e'.from)
                      && IsRun(edges, r, e'.to, w, y);
      assert IsRun(edges, [e] + q, x, [], e'.from) by {
        assert ([e] + q)[1..] == q;
      }
    } else {
      assert ([c] + w)[1..] == w;
      assert IsRun(edges, [], x, [], e.from);
    }
  }

  /** The simulation holds exactly the states some run over `w` reaches from
      `s`, provided `w` holds no EPSILON character. */
  lemma {:induction false} SimulateIsRuns(edges: set<Edge>, s: set<int>, w: seq<char>, y: int)
    requires EPSILON !in w
    ensures y in Simulate(edges, Closure(edges, s), w) <==> exists x, p :: x in s && IsRun(edges, p, x, w, y)
    decreases |w|
  {
    if w == [] {
      ClosureIsEpsReach(edges, s, y);
    } else {
      var c := w[0];
      var cl := Closure(edges, s);
      var s' := Move(edges, cl, c);
      assert w == [c] + w[1..];
      SimulateIsRuns(edges, s', w[1..], y);
      assert Simulate(edges, cl, w) == Simulate(edges, Closure(edges, s'), w[1..]);
      if y in Simulate(edges, cl, w) {
        var z, p' :| z in s' && IsRun(edges, p', z, w[1..], y);
        var e :| e in edges && e.from in cl && e.symbol == c && e.to == z;
        ClosureIsEpsReach(edges, s, e.from);
        var x, q :| x in s && IsRun(edges, q, x, [], e.from);
        SingleStepRun(edges, e);
        RunAppend(edges, q, x, [], e.from, [e], [c], z);
        RunAppend(edges, q + [e], x, [] + [c], z, p', w[1..], y);
        assert [] + [c] + w[1..] == w;
        assert exists x, p :: x in s && IsRun(edges, p, x, w, y);
      }
      if exists x, p :: x in s && IsRun(edges, p, x, w, y) {
        var x, p :| x in s && IsRun(edges, p, x, w, y);
        RunSplitFirst(edges, p, x, c, w[1..], y);
        var q, e, r :| e in edges && e.symbol == c && IsRun(edges, q, x, [], e.from)
                       && IsRun(edges, r, e.to, w[1..], y);
        assert exists x', q' :: x' in s && IsRun(edges, q', x', [], e.from);
        ClosureIsEpsReach(edges, s, e.from);
        MoveMember(edges, cl, c, e);
        assert exists z, p' :: z in s' && IsRun(edges, p', z, w[1..], y);
        assert y in Simulate(edges, cl, w);
      }
    }
  }

  /** The simulation accepts exactly the inputs some run accepts. */
  lemma SimulationAcceptsIffAccepted(edges: set<Edge>, start: int, finals: set<int>, w: seq<char>)
    requires EPSILON !in w
    ensures SimulationAccepts(edges, start, finals, w) <==> Accepted(edges, start, finals, w)
  {
    var sim := Simulate(edges, Closure(edges, {start}), w);
    if SimulationAccepts(edges, start, finals, w) {
      var f := ElementOf(sim * finals);
      SimulateIsRuns(edges, {start}, w, f);
    }
    if Accepted(edges, start, finals, w) {
      var path, f :| f in finals && IsRun(edges, path, start, w, f);
      assert exists x, p :: x in {start} && IsRun(edges, p, x, w, f);
      SimulateIsRuns(edges, {start}, w, f);
      assert f in sim * finals;
    }
  }

  // ---------------------------------------------------------------------
  // Executable closure and acceptance

  /** Worklist computation of the epsilon closure with a visited set. */
  method EpsilonClosure(edges: set<Edge>, s: set<int>) returns (visited: set<int>)
    ensures visited == Closure(edges, s)
  {
    ghost var bound := s + Targets(edges);
    ClosureIsLeast(edges, s, {});
    visited := s;
    var pending := s;
    while pending != {}
      invariant s <= visited <= bound
      invariant pending <= visited
      invariant visited <= Closure(edges, s)
      invariant forall e :: e in edges && e.symbol == EPSILON && e.from in visited && e.from !in pending ==> e.to in visited
      decreases |bound - visited|, |pending|
    {
      ghost var someU := ElementOf(pending);
      var u :| u in pending;
      var added := Move(edges, {u}, EPSILON) - visited;
      if added != {} {
        StrictSubsetCardinality(bound - (visited + added), bound - visited);
      }
      visited := visited + added;
      pending := pending - {u} + added;
    }
    ClosureIsLeast(edges, s, visited);
  }

  /** Decides acceptance with the set-of-states simulation; stops early when
      no state survives a character. */
  method RunSimulation(edges: set<Edge>, start: int, finals: set<int>, input: seq<char>) returns (r: bool)
    ensures r == SimulationAccepts(edges, start, finals, input)
    ensures EPSILON !in input ==> (r <==> Accepted(edges, start, finals, input))
  {
    var current := EpsilonClosure(edges, {start});
    var i := 0;
    while i < |input|
      invariant 0 <= i <= |input|
      invariant Simulate(edges, current, input[i..]) == Simulate(edges, Closure(edges, {start}), input)
    {
      assert input[i..][1..] == input[i + 1..];
      var next := EpsilonClosure(edges, Move(edges, current, input[i]));
      if next == {} {
        SimulateEmpty(edges, input[i + 1..]);
        r := false;
        if EPSILON !in input {
          SimulationAcceptsIffAccepted(edges, start, finals, input);
        }
        return;
      }
      current := next;
      i := i + 1;
    }
    r := current * finals != {};
    if EPSILON !in input {
      SimulationAcceptsIffAccepted(edges, start, finals, input);
    }
  }
}

=== FILE: node.dfy ===
/**
  A node of the generic adjacency graph: a data value and a map from
  neighbour nodes (by identity) to the label of the edge to them. The graph
  is only used with `char` labels, so the label type is `char` and its
  default value `E()` is the null character.
 */
module NodeModule {
  import opened Wrappers

  /** `E()`, the default edge label. */
  const DEFAULT_LABEL: char := '\0'

  /** `std::out_of_range`, thrown by `unordered_map::at` for a missing key. */
  datatype NodeError = OutOfRange

  class Node<T(==)> {
    var data: T
    var neighbors: map<Node<T>, char>

    /** `Node(data)`: stores `data`, with no neighbours. */
    constructor (data: T)
      ensures this.data == data && neighbors == map[]
    {
      this.data := data;
      neighbors := map[];
    }

    /** Replaces the data; the neighbours stay. */
    method SetData(data: T)
      modifies this
      ensures this.data == data && neighbors == old(neighbors)
    {
      this.data := data;
    }

    /** `add_neighbor(neighbor)`: writes the default label through
        `m_neighbors.at(neighbor)`, so it only relabels a neighbour that is
        already there, and fails for any other node. */
    method AddNeighbor(neighbor: Node<T>) returns (r: Result<(), NodeError>)
      modifies this
      ensures r.Success? <==> neighbor in old(neighbors)
      ensures r.Success? ==> neighbors == old(neighbors)[neighbor := DEFAULT_LABEL]
      ensures r.Failure? ==> neighbors == old(neighbors)
      ensures data == old(data) && neighbors.Keys == old(neighbors).Keys
    {
      r := AddNeighborLabelled(neighbor, DEFAULT_LABEL);
    }

    /** `add_neighbor(neighbor, edge)`: writes `edge` through
        `m_neighbors.at(neighbor)`, with the same restriction. */
    method AddNeighborLabelled(neighbor: Node<T>, edge: char) returns (r: Result<(), NodeError>)
      modifies this
      ensures r.Success? <==> neighbor in old(neighbors)
      ensures r.Success? ==> neighbors == old(neighbors)[neighbor := edge]
      ensures r.Failure? ==> neighbors == old(neighbors)
      ensures data == old(data) && neighbors.Keys == old(neighbors).Keys
    {
      if neighbor !in neighbors {
        return Failure(OutOfRange);
      }
      neighbors := neighbors[neighbor := edge];
      r := Success(());
    }

    /** What `add_neighbor(neighbor, edge)` is meant to do: make `neighbor`
        a neighbour with label `edge`, whether or not it already was one
        (`m_neighbors[neighbor] = edge`). */
    method InsertNeighbor(neighbor: Node<T>, edge: char)
      modifies this
      ensures neighbors == old(neighbors)[neighbor := edge]
      ensures data == old(data)
      ensures IsNeighbor(neighbor) && neighbors[neighbor] == edge
      ensures neighbors.Keys == old(neighbors).Keys + {neighbor}
    {
      neighbors := neighbors[neighbor := edge];
    }

    /** `operator==`: two nodes are equal when their data is; neighbours
        are not compared. */
    predicate Equals(other: Node<T>)
      reads this, other
      ensures Equals(other) <==> data == other.data
    {
      data == other.data
    }

    /** `operator!=`: the data differs. */
    predicate NotEquals(other: Node<T>)
      reads this, other
      ensures NotEquals(other) <==> !Equals(other)
    {
      data != other.data
    }

    /** `is_neighbor(ptr)`: this very node is a key of the neighbour map. */
    predicate IsNeighbor(neighbor: Node<T>)
      reads this
      ensures IsNeighbor(neighbor) <==> neighbor in neighbors.Keys
    {
      neighbor in neighbors
    }

    /** Some neighbour carries `data`. */
    ghost predicate HasNeighborWithData(data: T)
      reads this, neighbors.Keys
    {
      exists n :: n in neighbors && n.data == data
    }

    /** `is_neighbor(data)`: searches the neighbours for one carrying
        `data`. */
    method IsNeighborData(data: T) returns (r: bool)
      ensures r <==> HasNeighborWithData(data)
    {
      var remaining := neighbors.Keys;
      while remaining != {}
        invariant remaining <= neighbors.Keys
        invariant forall n :: n in neighbors.Keys - remaining ==> n.data != data
        decreases |remaining|
      {
        var n :| n in remaining;
        if n.data == data {
          return true;
        }
        remaining := remaining - {n};
      }
      r := false;
    }

    /** `is_neighbor(node)`: by the other node's data, not its identity. */
    method IsNeighborNode(node: Node<T>) returns (r: bool)
      ensures r <==> HasNeighborWithData(node.data)
    {
      r := IsNeighborData(node.data);
    }
  }

  /** A node is always equal to itself, and nodes with the same data are
      equal whatever their neighbours: equality ignores them. */
  lemma EqualsIgnoresNeighbors<T>(a: Node<T>, b: Node<T>)
    ensures a.Equals(a)
    ensures a.data == b.data ==> a.Equals(b) && b.Equals(a)
  {
  }
}

=== FILE: vertex_graph.dfy ===
/**
  The vertex-id graph the infix compiler builds on: vertices are integer ids
  handed out by `create_vertex` (1, 2, 3, ...), transitions are
  `(from, symbol, to)` triples, and the graph records one start vertex and a
  set of final vertices. Since ids are handed out in order and never
  removed, the vertex set is exactly the ids below the next free id, and the
  model keeps it as that counter.

  The class keeps the state the compiler updates in place; `GraphValue` is
  a snapshot of it, used for the fragments the compiler keeps on its stack.
 */
module VertexGraph {
  import opened Wrappers
  import opened Semantics

  /** A snapshot of a graph's state; its vertices are `1 .. nextId - 1`. */
  datatype GraphValue = GraphValue(edges: set<Edge>, start: int, finals: set<int>, nextId: int)

  /** `v` is an id `create_vertex` has handed out. */
  predicate IsVertex(g: GraphValue, v: int)
  {
    1 <= v < g.nextId
  }

  /** `lo <= v < hi`, as a term the verifier can match on. */
  predicate Between(lo: int, v: int, hi: int)
  {
    lo <= v < hi
  }

  /** The ids `lo`, ..., `hi - 1`. The comparisons bound the comprehension
      so that it is finite; `Between` repeats them only to give its
      quantifier a trigger, which bare comparisons cannot be. */
  function Range(lo: int, hi: int): set<int>
  {
    set v | lo <= v < hi && Between(lo, v, hi)
  }

  lemma {:induction false} RangeSize(lo: int, hi: int)
    requires lo <= hi
    ensures |Range(lo, hi)| == hi - lo
    decreases hi - lo
  {
    if lo < hi {
      RangeSize(lo, hi - 1);
      assert Range(lo, hi) == Range(lo, hi - 1) + {hi - 1};
    } else {
      assert Range(lo, hi) == {};
    }
  }

  /** The state every graph keeps: ids start at 1, and only handed-out ids
      can be final. */
  ghost predicate Consistent(g: GraphValue)
  {
    && g.nextId >= 1
    && g.finals <= Range(1, g.nextId)
  }

  /** Transition `e` joins two vertices of `g`. */
  predicate EdgeWithin(g: GraphValue, e: Edge)
  {
    IsVertex(g, e.from) && IsVertex(g, e.to)
  }

  /** Every transition joins two vertices of the graph. The quantifier is
      only instantiated where `EdgeWithin` is mentioned, which keeps it out
      of the set reasoning about the constructions. */
  ghost predicate EdgesWithin(g: GraphValue)
  {
    forall e {:trigger EdgeWithin(g, e)} :: e in g.edges ==> EdgeWithin(g, e)
  }

  /** A graph the compiler can use as an operand: its transitions join its
      own vertices, its start is a vertex and it has exactly one final
      vertex, so `*get_final().begin()` is defined. */
  ghost predicate IsFragment(g: GraphValue)
  {
    Consistent(g) && EdgesWithin(g) && IsVertex(g, g.start) && |g.finals| == 1
  }

  /** The final vertex of a fragment. */
  ghost function TheFinal(g: GraphValue): (f: int)
    requires |g.finals| == 1
    ensures g.finals == {f}
  {
    var f := ElementOf(g.finals);
    assert |g.finals - {f}| == 0;
    f
  }

  /** A transition moved `off` ids up. */
  function ShiftEdge(e: Edge, off: int): Edge
  {
    Edge(e.from + off, e.symbol, e.to + off)
  }

  /** A set of transitions moved `off` ids up. */
  function ShiftEdges(es: set<Edge>, off: int): set<Edge>
  {
    set e | e in es :: ShiftEdge(e, off)
  }

  lemma ShiftEdgesMember(es: set<Edge>, off: int, e: Edge)
    ensures e in ShiftEdges(es, off) <==> ShiftEdge(e, -off) in es
  {
    if ShiftEdge(e, -off) in es {
      assert ShiftEdge(ShiftEdge(e, -off), off) == e;
    }
  }

  /** A copied transition of a fragment joins two of the copied ids. */
  lemma ShiftedEdgeWithin(f: GraphValue, off: int, e: Edge)
    requires EdgesWithin(f) && e in ShiftEdges(f.edges, off)
    ensures off < e.from < off + f.nextId && off < e.to < off + f.nextId
  {
    ShiftEdgesMember(f.edges, off, e);
    assert EdgeWithin(f, ShiftEdge(e, -off));
  }

  class Graph {
    var edges: set<Edge>
    var start: int
    var finals: set<int>
    var nextId: int

    function Value(): GraphValue
      reads this
    {
      GraphValue(edges, start, finals, nextId)
    }

    ghost predicate Valid()
      reads this
    {
      Consistent(Value())
    }

    /** A graph with no vertices; the first id handed out is 1. */
    constructor ()
      ensures Valid()
      ensures Value() == GraphValue({}, 0, {}, 1)
    {
      edges, start, finals, nextId := {}, 0, {}, 1;
    }

    /** Allocates the next id; ids are never reused. */
    method CreateVertex() returns (v: int)
      requires Valid()
      modifies this
      ensures Valid()
      ensures v == old(nextId) && !IsVertex(old(Value()), v) && IsVertex(Value(), v)
      ensures nextId == v + 1
      ensures edges == old(edges) && start == old(start) && finals == old(finals)
    {
      v := nextId;
      nextId := nextId + 1;
    }

    /** Records the transition `u --symbol--> w`. */
    method AddEdge(u: int, symbol: char, w: int)
      requires Valid()
      modifies this
      ensures Valid()
      ensures edges == old(edges) + {Edge(u, symbol, w)}
      ensures nextId == old(nextId) && start == old(start) && finals == old(finals)
    {
      edges := edges + {Edge(u, symbol, w)};
    }

    method SetStart(v: int)
      requires Valid()
      modifies this
      ensures Valid()
      ensures start == v
      ensures edges == old(edges) && finals == old(finals) && nextId == old(nextId)
    {
      start := v;
    }

    /** Adds vertices to the accepting set; never removes one. */
    method AddFinal(vs: set<int>)
      requires Valid() && forall v :: v in vs ==> IsVertex(Value(), v)
      modifies this
      ensures Valid()
      ensures finals == old(finals) + vs
      ensures edges == old(edges) && start == old(start) && nextId == old(nextId)
    {
      finals := finals + vs;
    }

    /** The ids handed out so far: one per `create_vertex` call. */
    function GetVertexes(): (r: set<int>)
      requires Valid()
      reads this
      ensures |r| == nextId - 1
      ensures forall v :: v in r <==> IsVertex(Value(), v)
    {
      RangeSize(1, nextId);
      Range(1, nextId)
    }

    /** A vertex is contained exactly when it is one of `get_vertexes()`. */
    predicate ContainsVertex(v: int)
      requires Valid()
      reads this
      ensures ContainsVertex(v) <==> v in GetVertexes()
    {
      1 <= v < nextId
    }

    /** Empty exactly when there are no vertices. */
    predicate IsEmpty()
      requires Valid()
      reads this
      ensures IsEmpty() <==> GetVertexes() == {}
    {
      assert nextId > 1 ==> 1 in GetVertexes();
      nextId == 1
    }

    /** Only vertices can be final. */
    predicate IsFinal(v: int)
      requires Valid()
      reads this
      ensures IsFinal(v) ==> ContainsVertex(v)
    {
      v in finals
    }

    /** The label of the transition `u -> v`, if there is one; the direction
        matters. */
    method GetWeight(u: int, v: int) returns (r: Option<char>)
      ensures r.Some? <==> exists s :: Edge(u, s, v) in edges
      ensures r.Some? ==> Edge(u, r.value, v) in edges
    {
      var between := set e | e in edges && e.from == u && e.to == v;
      if between == {} {
        r := None;
        forall s ensures Edge(u, s, v) !in edges {
          assert Edge(u, s, v) !in between;
        }
      } else {
        ghost var someE := ElementOf(between);
        var e :| e in between;
        r := Some(e.symbol);
      }
    }

    /** Creates `n` vertices; they take the next `n` ids. */
    method CreateVertexes(n: nat)
      requires Valid()
      modifies this
      ensures Valid()
      ensures nextId == old(nextId) + n
      ensures edges == old(edges) && start == old(start) && finals == old(finals)
    {
      var i := 0;
      while i < n
        invariant 0 <= i <= n
        invariant Valid()
        invariant nextId == old(nextId) + i
        invariant edges == old(edges) && start == old(start) && finals == old(finals)
      {
        var _ := CreateVertex();
        i := i + 1;
      }
    }

    /** Adds a copy of every transition in `es`, moved `off` ids up. */
    method CopyEdges(es: set<Edge>, off: int)
      requires Valid()
      modifies this
      ensures Valid()
      ensures edges == old(edges) + ShiftEdges(es, off)
      ensures nextId == old(nextId) && start == old(start) && finals == old(finals)
    {
      var todo := es;
      while todo != {}
        invariant todo <= es
        invariant Valid()
        invariant edges == old(edges) + ShiftEdges(es - todo, off)
        invariant nextId == old(nextId) && start == old(start) && finals == old(finals)
        decreases |todo|
      {
        ghost var someE := ElementOf(todo);
        var e :| e in todo;
        AddEdge(e.from + off, e.symbol, e.to + off);
        assert ShiftEdges(es - (todo - {e}), off) == ShiftEdges(es - todo, off) + {ShiftEdge(e, off)};
        todo := todo - {e};
      }
      assert es - {} == es;
    }

    /** Copies fragment `f` into this graph and links `v` to the copy of its
        start: every vertex of `f` gets a fresh id (its own moved up by
        `nextId - 1`), every transition of `f` is copied between the copies,
        and start and finals are untouched. Returns the copies of `f`'s start
        and final. */
    method ConnectGraphToVertex(f: GraphValue, v: int) returns (newStart: int, newEnd: int)
      requires Valid() && IsFragment(f)
      modifies this
      ensures Valid()
      ensures edges == old(edges) + ShiftEdges(f.edges, old(nextId) - 1) + {Edge(v, EPSILON, f.start + old(nextId) - 1)}
      ensures nextId == old(nextId) + f.nextId - 1 && start == old(start) && finals == old(finals)
      ensures newStart == f.start + old(nextId) - 1 && newEnd - (old(nextId) - 1) in f.finals
      ensures old(nextId) <= newStart < nextId && old(nextId) <= newEnd < nextId
    {
      var off := nextId - 1;
      CreateVertexes(f.nextId - 1);
      CopyEdges(f.edges, off);
      AddEdge(v, EPSILON, f.start + off);
      ghost var someFin := ElementOf(f.finals);
      var fin :| fin in f.finals;
      newStart, newEnd := f.start + off, fin + off;
    }
  }
}

=== FILE: wrappers.dfy ===
/** Failure-carrying results shared by the modules of this model. */
module Wrappers {

  /** An optional value, as `std::optional` in the source. */
  datatype Option<+T> = None | Some(value: T)

  /** A value or the reason it could not be produced. */
  datatype Result<+T, +E> = Success(value: T) | Failure(error: E)
}
